=== FILE: README.md ===
# Minimal-price resolver of `website_sale_product_minimal_price`

This project models the pricing core of the Odoo add-on `website_sale_product_minimal_price` and
proves properties about it. The add-on shows a "From <lowest price>" label on products with
several variants. The model covers five parts:

- **Pricelist-graph walker** (`PricelistGraph`). `_get_product_subpricelists`,
  `_get_variants_from_pricelist` and `_get_pricelist_variant_items` follow "formula, based on
  another pricelist" rules from a start pricelist. Cycles are allowed. The walker collects every
  variant-scoped rule of the template's variants that it reaches. The worklist loop is a
  tail-recursive function. It terminates under the lexicographic measure (unvisited pricelists,
  pending pricelists). Its result is proved to be exactly the variant rules of the pricelists
  reachable from the start.
- **Candidate builder and price scan** (`Candidates`, `Scan`, `Cheapest`). `_get_cheapest_info`
  chooses the candidate variants of each template. It prices each candidate at quantities 1 and
  99999999, then keeps a running minimum and two flags under its own tie-break rule. That rule is
  modelled exactly. The model proves what the rule does give and, by counterexample, what it does
  not.
- **Default combination** (`Combination`). `_get_first_possible_combination` rebuilds the
  combination of the variant the scan reports, line by line.
- **Two JSON endpoints** (`Controllers`):
  - the batch projection of `get_combination_info_minimal_price`;
  - the quantity-price scale of `get_combination_info_pricelist_atributes`.
- **Rule-filter flags** (`PricelistDomain`). `based_on_pricelist` and `has_min_qty` narrow
  `_get_applicable_rules_domain`.

`Scenarios` encodes the two resolver tests on their own data.

Modelling choices:

- **Recordsets are sequences without duplicates** (`SeqUtil`):
  - `|` is `Union` (concatenate, keep first occurrences);
  - `-` is `Difference` / `Without`;
  - `[:1]` is `Take1`.
- **Search order is catalog order.** A search is a filter of the catalog sequence, which stands
  for `product.pricelist.item` records in their `_order`.
- **The pricing engine is a set of oracles.** Odoo's engine and the framework's part of the
  applicable-rules domain are function-typed fields of `Records.Env`:
  - `inScope` is the parent domain: date, company, product and category scope;
  - `isApplicableFor` is `_is_applicable_for`;
  - `templatePrice` and `variantPrice` are `_get_products_price`; a missing dictionary entry is
    `None`;
  - `contextualPrice` is `_get_contextual_price`;
  - `combinationPrice` is the price of `_get_combination_info`.
- **The walk is a tail-recursive function.** `PricelistGraph.Walk` takes one `while next_pricelists`
  iteration per call, with the loop variables as parameters. As a function it can be evaluated
  inside lemmas, which the scenario lemmas need to run the whole resolver on the tests' data.
- **Prices and quantities are exact integers.** `SENTINEL` is 99999999.

## Model

| member | source | states |
|---|---|---|
| PricelistDomain.RulesDomain | website_sale_product_minimal_price/models/product_pricelist.py:8-19 | the extended domain only narrows the parent's; with `based_on_pricelist` every passing rule is a formula on another pricelist; with `has_min_qty` every passing rule has a non-zero minimum quantity; a parent rule meeting the active conditions passes; with neither flag the domain is the parent's |
| PricelistDomain.ApplicableRules | website_sale_product_minimal_price/models/product_pricelist.py:8-19 | a rule is returned iff it is in the catalog, belongs to the pricelist, is in scope for the product and meets the conditions of the active flags |
| PricelistGraph.Feeds | website_sale_product_minimal_price/models/product_template.py:28-31 | a rule scoped to one of the template's variants always feeds; any other rule feeds iff it is applicable to the template at its minimum quantity, or at 1 when that is 0 |
| PricelistGraph.CollectBases | website_sale_product_minimal_price/models/product_template.py:24-33 | the loop collects no pricelist twice, and collects exactly the base pricelists of the rules that are applicable at `min_quantity or 1` or scoped to one of the template's variants |
| PricelistGraph.SubPricelists | website_sale_product_minimal_price/models/product_template.py:20-33 | the sub-pricelists have no duplicates, `p` is one iff some in-scope formula-on-pricelist rule of `pl` that feeds the template is based on `p`, and every one is the base of some catalog rule |
| PricelistGraph.VariantItems | website_sale_product_minimal_price/models/product_template.py:35-42 | a rule is found iff it is in the catalog, belongs to one of the given pricelists and is scoped to a variant of the template |
| PricelistGraph.Walk | website_sale_product_minimal_price/models/product_template.py:49-57 | the loop terminates on every reference graph, cycles included; rules already collected stay collected; no pricelist is expanded twice and none that was visited before |
| PricelistGraph.StartWalk | website_sale_product_minimal_price/models/product_template.py:44-58 | the collected rules are exactly the catalog's variant rules of the template in a pricelist reachable from the start; the expanded pricelists are exactly the reachable ones other than the start, each once |
| PricelistGraph.PricelistVariantItems | website_sale_product_minimal_price/models/product_template.py:44-58 | `_get_pricelist_variant_items` returns each rule once, and a rule iff it is a variant rule of the template in the start pricelist or a pricelist reachable from it |
| PricelistGraph.ReachableStep | website_sale_product_minimal_price/models/product_template.py:53 | following one more delegation edge from a reachable pricelist stays reachable |
| PricelistGraph.ClosedSetHoldsReachable | website_sale_product_minimal_price/models/product_template.py:49-57 | a set containing the start and closed under delegation edges contains every reachable pricelist |
| PricelistGraph.StartStateIsInvariant | website_sale_product_minimal_price/models/product_template.py:45-48 | the state before the loop satisfies the walk invariant |
| PricelistGraph.ExpandKeepsInvariant | website_sale_product_minimal_price/models/product_template.py:51-55 | expanding an unvisited pending pricelist keeps the invariant |
| PricelistGraph.DropKeepsInvariant | website_sale_product_minimal_price/models/product_template.py:56-57 | dropping an already visited pending pricelist keeps the invariant |
| PricelistGraph.FinishedWalkIsClosure | website_sale_product_minimal_price/models/product_template.py:49 | when nothing is pending, the visited pricelists are exactly the reachable ones |
| PricelistGraph.WalkReachesClosure | website_sale_product_minimal_price/models/product_template.py:49-58 | from any state meeting the invariant, the walk ends with exactly the variant rules of the reachable pricelists, each once |
| Candidates.ExtraPriced | website_sale_product_minimal_price/models/product_template.py:66 | a variant is listed iff it belongs to the template and has a non-zero surcharge |
| Candidates.Referenced | website_sale_product_minimal_price/models/product_template.py:77 | `mapped("product_id")` lists each referenced variant once, and a variant iff some rule names it |
| Candidates.RuledCandidates | website_sale_product_minimal_price/models/product_template.py:77-78 | every referenced variant is a candidate, at most one unreferenced variant is, and one is iff the template has an unreferenced variant |
| Candidates.PlainCandidate | website_sale_product_minimal_price/models/product_template.py:67-80 | `variants_without_extra_price[:1]` (lines 67-69 and 80): at most one candidate, surcharge-free, present iff the template has a surcharge-free variant |
| Candidates.CandidateVariants | website_sale_product_minimal_price/models/product_template.py:65-82 | the candidates are distinct variants of the template, include every surcharged variant, follow the rules or no-rules choice above, and are non-empty whenever the template has a variant |
| Cheapest.TemplatePrice | website_sale_product_minimal_price/models/product_template.py:94-97 | the template price is the smaller of the prices at 1 and at the sentinel, a missing price counting as the sentinel |
| Cheapest.TemplateCandidates | website_sale_product_minimal_price/models/product_template.py:71-82 | the candidates under a pricelist are distinct variants of the template, and exist whenever the template has variants |
| Cheapest.TemplateInfo | website_sale_product_minimal_price/models/product_template.py:92-125 | the reported variant is a candidate and a variant of the template at quantity 1 or the sentinel, or there is none and the quantity is 0; the template flag holds iff some candidate price at some quantity differs from the template price; `tmpl_price_zero` holds iff the template price is 0; with every candidate price below the sentinel, `has_distinct_price` holds iff two candidate prices (at either quantity) differ; when the template flag is set, the reported variant's price at the reported quantity is at most every candidate price that differs from the template price; when it is unset and the template price is below the sentinel, the first candidate is reported at quantity 1 |
| Cheapest.CheapestInfo | website_sale_product_minimal_price/models/product_template.py:60-126 | the result has one entry per template id of the batch, each the result for that template |
| Cheapest.CheapestInfoAsWritten | website_sale_product_minimal_price/models/product_template.py:87 | the batch step fails iff the batch is empty, and otherwise agrees with `CheapestInfo` |
| Scan.Observations | website_sale_product_minimal_price/models/product_template.py:102-104 | the scan sees each candidate at both quantities with its price there, and nothing else |
| Scan.Accepts | website_sale_product_minimal_price/models/product_template.py:109-111 | a strictly lower price is always accepted; once the template flag is set only a strictly lower one is; before that any price different from the template price is, even a higher one; the template price never replaces a minimum at or below it |
| Scan.Step | website_sale_product_minimal_price/models/product_template.py:105-116 | the template flag is a sticky record of a price different from the template price; the distinct flag is sticky and never raised before a minimum exists; minimum, variant and quantity change together to the observed ones; once the template flag is set only a strictly lower price replaces the minimum |
| Scan.Run | website_sale_product_minimal_price/models/product_template.py:98-116 | the loop over the observations in order; while nothing has been accepted the minimum stays the sentinel, the quantity 0 and `has_distinct_price` unset |
| Scan.RunFlagsDivergence | website_sale_product_minimal_price/models/product_template.py:109-113 | after the scan the template flag holds iff some observed price differs from the template price |
| Scan.RunReportsObservation | website_sale_product_minimal_price/models/product_template.py:98-116 | the reported minimum, variant and quantity are those of one observation, or the initial ones when nothing was accepted |
| Scan.RunDistinctInvariant | website_sale_product_minimal_price/models/product_template.py:100-108 | with all prices below the sentinel, equal prices leave the distinct flag unset with the minimum at that price, and unequal prices set it |
| Scan.RunDistinctIffPricesDiffer | website_sale_product_minimal_price/models/product_template.py:100-108 | with all prices below the sentinel, the distinct flag ends true iff the observed prices are not all equal |
| Scan.RunWithoutDivergence | website_sale_product_minimal_price/models/product_template.py:109-116 | when every price equals the template price and that price is below the sentinel, the first observation's variant and quantity are reported at that price; when the template price is at or above the sentinel, nothing is reported and the minimum stays the sentinel; the template flag stays unset |
| Scan.RunMinimumAfterDivergence | website_sale_product_minimal_price/models/product_template.py:109-116 | when the first template-divergent price is at position `k`, the reported price is the minimum of the prices from `k` on, and it is observed there |
| Scan.GlobalMinimumWhenFirstDiverges | website_sale_product_minimal_price/models/product_template.py:109-116 | when the very first price differs from the template price, the reported price is the global minimum |
| Scan.NotAlwaysGlobalMinimum | website_sale_product_minimal_price/models/product_template.py:109-116 | with template price 10 and prices 10 then 12, the scan reports 12: the result is not always the lowest observed price |
| Scan.TemplatePriceAfterDivergenceWins | website_sale_product_minimal_price/models/product_template.py:109-116 | with template price 10 and prices 12 then 10, the 12 raises the template flag and the later 10 replaces it as strictly lower: the reported price can equal the template price even with the flag raised |
| Scan.DistinctFlagOfCandidates | website_sale_product_minimal_price/models/product_template.py:100-108 | with every candidate price below the sentinel, `has_distinct_price` ends true iff two candidate prices, at either quantity, differ |
| Scan.CheapestAmongDivergent | website_sale_product_minimal_price/models/product_template.py:102-116 | once some candidate price differs from the template price, the reported variant's price at the reported quantity is at most every candidate price that differs from the template price |
| Scan.FirstCandidateWithoutDivergence | website_sale_product_minimal_price/models/product_template.py:102-116 | when no candidate price differs from a template price below the sentinel, the first candidate is reported at quantity 1 |
| Scan.ScanOfCandidates | website_sale_product_minimal_price/models/product_template.py:92-116 | the scan over candidates reports a candidate at 1 or the sentinel whose price there is the scan's final `min_price` (not necessarily the lowest price, see `Scan.NotAlwaysGlobalMinimum`); it raises the template flag iff some candidate price differs from the template price; with every candidate price below the sentinel, it raises the distinct flag iff two candidate prices differ; with the template flag raised the reported price is at most every candidate price that differs from the template price, and the final `min_price` is at most every price observed from the first differing observation onwards; without the flag the first candidate is reported at quantity 1 |
| Combination.ValuesOnLine | website_sale_product_minimal_price/models/product_template.py:147-152 | the value kept for a line is the variant's own values on it, or the line's first value when the variant has none there |
| Combination.Rebuild | website_sale_product_minimal_price/models/product_template.py:146-153 | every rebuilt value comes from one of the lines |
| Combination.AtMostOneOnLine | website_sale_product_minimal_price/models/product_template.py:148-150 | a variant with at most one value per line contributes at most one value for each line |
| Combination.OneValuePicked | website_sale_product_minimal_price/models/product_template.py:147-152 | on a non-empty line, a variant with at most one value there contributes exactly one value: its own value on the line, or the line's first value |
| Combination.RebuildFollowsLines | website_sale_product_minimal_price/models/product_template.py:146-153 | for non-empty lines, the combination has one entry per line in line order, each the variant's value on the line or the line's first value |
| Combination.FindVariant | website_sale_product_minimal_price/models/product_template.py:144 | `browse(product_id)` yields the template's variant with that id |
| Combination.CheapestCombination | website_sale_product_minimal_price/models/product_template.py:143-153 | with no reported variant the combination is empty; otherwise its values come from the valid lines, one per line in line order when the variant has one value per line |
| Combination.FirstPossibleCombination | website_sale_product_minimal_price/models/product_template.py:128-154 | without a storefront pricelist or with at most one variant the parent result is returned unchanged; otherwise the combination of the variant the scan reports, whose values come from the valid lines |
| Controllers.Published | website_sale_product_minimal_price/controllers/main.py:23-28 | a template is kept iff it was requested and is published |
| Controllers.EntryFor | website_sale_product_minimal_price/controllers/main.py:31-55 | the entry carries the template id and both flags unchanged; price and currency are present iff a variant was reported and one flag is set, and then they are the combination price at the reported quantity and the template currency |
| Controllers.EntriesFrom | website_sale_product_minimal_price/controllers/main.py:31-56 | one entry per published template, in order |
| Controllers.MinimalPriceEntries | website_sale_product_minimal_price/controllers/main.py:18-57 | exactly one entry per published template, in filtered order, each built from that template's result; unpublished templates are dropped |
| Controllers.EntriesCoverPublished | website_sale_product_minimal_price/controllers/main.py:30-56 | every entry belongs to a published template and every published template has an entry |
| Controllers.MinimalPriceEntriesAsWritten | website_sale_product_minimal_price/controllers/main.py:23-30 | the endpoint fails iff no requested template is published, and otherwise agrees with `MinimalPriceEntries` |
| Controllers.UnpublishedRequestFails | website_sale_product_minimal_price/controllers/main.py:23-30 | a request for one unpublished template fails as written, where the corrected endpoint answers with no entries |
| Controllers.MinQuantities | website_sale_product_minimal_price/controllers/main.py:80-82 | a quantity is listed iff some rule has it as its minimum quantity |
| Controllers.BreaksPriceOf | website_sale_product_minimal_price/controllers/main.py:77-81 | a rule sets a breakpoint iff it is among the pricelist's applicable rules under `has_min_qty` and is applicable to the product at its own minimum quantity |
| SeqUtil.SortedDistinct | website_sale_product_minimal_price/controllers/main.py:83 | `sorted(set(...))`: the result ascends strictly and holds exactly the input's values |
| Controllers.Breakpoints | website_sale_product_minimal_price/controllers/main.py:77-83 | the breakpoints ascend strictly, and a quantity is one iff it is the minimum quantity of an in-scope non-zero-minimum rule of the pricelist that applies to the product at that quantity |
| Controllers.ScaleRows | website_sale_product_minimal_price/controllers/main.py:86-99 | every row is at a breakpoint with its contextual price; the first row differs from the starting price and consecutive rows differ in price; sorted breakpoints give strictly ascending rows |
| Controllers.ScaleRowsAreThePriceChanges | website_sale_product_minimal_price/controllers/main.py:85-99 | a breakpoint gets a row iff its price differs from that of the previous breakpoint, or from the starting price for the first |
| Controllers.PriceScale | website_sale_product_minimal_price/controllers/main.py:65-100 | the rows are at breakpoints with their contextual prices, ascending strictly, the first differing from the quantity-0 price and each from the previous; the second component is the unit-of-measure name |
| Controllers.PriceScaleOmitsUnchangedPrices | website_sale_product_minimal_price/controllers/main.py:84-100 | a breakpoint is omitted iff its price equals the previous breakpoint's price, or the quantity-0 price for the first |
| Scenarios.MainLinksToAux | website_sale_product_minimal_price/tests/test_product_template.py:88-106 | the main pricelist's category rule delegates to the auxiliary pricelist |
| Scenarios.TestVariantItems | website_sale_product_minimal_price/tests/test_product_template.py:50-106 | the walk from the main pricelist collects exactly the two variant rules of the auxiliary pricelist |
| Scenarios.TestCandidates | website_sale_product_minimal_price/tests/test_product_template.py:48-87 | with both variants named by rules, the candidates are the two variants |
| Scenarios.CheapestAtHighQuantity | website_sale_product_minimal_price/tests/test_product_template.py:110-120 | with V1 at 10 from 10 units on, the resolver reports V1 at the sentinel quantity with distinct prices, whichever order the variant rules come in |
| Scenarios.SamePriceForBothVariants | website_sale_product_minimal_price/tests/test_product_template.py:122-133 | with both variants at 11, the resolver reports no distinct prices but a price distinct from the template's, a variant of the template, at quantity 1 |

## Left out

- The storefront JavaScript (`static/src/js`) is DOM and RPC code.
- HTTP routing, `sudo`, `request.env` and the website and pricelist lookup are left out. The
  current pricelist is a parameter. For `_get_first_possible_combination` it is an `Option`:
  `None` stands for "no `website_id` in the context".
- The pricing engine is uninterpreted: `_get_products_price`, `_get_contextual_price`,
  `_is_applicable_for`, the framework's part of `_get_applicable_rules_domain`, the date, and
  the price of `_get_combination_info`.
- The database search is left out. A search is a filter over a given catalog sequence, whose
  order stands for the rules' `_order`.
- The monkey-patched `_get_combination_info` (models/product_template.py:156-183) is left out.
  The search-result rendering (:185-197) is left out too; it is HTML presentation.
- The super call of `_get_first_possible_combination` is the `parent` parameter.
- `Cheapest.TemplateInfo`: `float_is_zero` with currency rounding is modelled as `== 0` on
  exact integer prices; float arithmetic is not modelled.
- `Cheapest.CheapestInfo`: the batch pricing of `all_variants` is modelled per template.
  `variantPrice` is a function of the variant alone, so the price of a variant does not depend on
  which batch it was priced in.
- `Controllers.PriceScale`: the scale endpoint uses only the pricelist's own applicable rules
  (controllers/main.py:77-79); it does not walk sub-pricelists.
- `Scan.RunMinimumAfterDivergence`: the reported price is not claimed to be the global minimum.
  The tie-break does not give one (`Scan.NotAlwaysGlobalMinimum`). The lemma states exactly what
  the rule gives.
- `Scan.ScanOfCandidates`: the price bound with the template flag raised is stated as "at most
  every candidate price that differs from the template price" plus the suffix bound over the
  observations; it is not "the lowest differing price", which the scan does not give
  (`Scan.TemplatePriceAfterDivergenceWins`). The exact rule is `Scan.RunMinimumAfterDivergence`.
- `Cheapest.TemplateInfo`: only the bound "at most every candidate price that differs from the
  template price" is carried up from the scan; the exact suffix-minimum rule stays in
  `Scan.RunMinimumAfterDivergence`.
- `Scan.RunDistinctIffPricesDiffer`: the if-and-only-if needs every price below the sentinel.
  A price equal to the sentinel behaves as "no minimum yet" in the source too.
- `Combination.CheapestCombination`: the per-line shape needs well-formed data. Every valid line
  must have a value, and the variant must carry at most one value per line. Odoo's attribute
  model guarantees both; the contract states the shape under these two hypotheses.
- The scenario lemmas take the prices the pricing engine computes for the test data as given
  oracle values. They do not derive those prices from the fixed-price rules.

## Findings

| source | as written | input that shows it | evidently intended | confidence | as-written member | corrected member |
|---|---|---|---|---|---|---|
| website_sale_product_minimal_price/models/product_template.py:87 | `reduce(sum, tmpl_variants.values())` has no initial value, so it raises `TypeError` on an empty batch; `get_combination_info_minimal_price` (controllers/main.py:23-30) calls the resolver on the published subset, which is empty when every requested template is unpublished | a request for one unpublished template | an empty batch resolves to no entries, and the endpoint answers `[]` | medium, not executed | Cheapest.CheapestInfoAsWritten, Controllers.MinimalPriceEntriesAsWritten, Controllers.UnpublishedRequestFails | Cheapest.CheapestInfo, Controllers.MinimalPriceEntries |

=== FILE: candidates.dfy ===
/** The candidate variants `_get_cheapest_info` prices for one template
    (models/product_template.py). */
module Candidates {
  import opened Wrappers
  import opened SeqUtil
  import opened Records

  /** `product_variant_ids.filtered("price_extra")`: the variants with a non-zero surcharge. */
  function ExtraPriced(t: Template): (r: seq<VariantId>)
    ensures forall v :: v in r <==> HasExtra(t, v)
  {
    ExtraPricedOf(t.variants)
  }

  function ExtraPricedOf(vs: seq<Variant>): (r: seq<VariantId>)
    ensures forall v :: v in r <==> HasExtraIn(vs, v)
    decreases |vs|
  {
    if vs == [] then []
    else
      var rest := ExtraPricedOf(vs[1..]);
      assert forall v :: HasExtraIn(vs, v) <==> (vs[0].id == v && vs[0].priceExtra != 0) || HasExtraIn(vs[1..], v) by {
        forall v ensures HasExtraIn(vs, v) <==> (vs[0].id == v && vs[0].priceExtra != 0) || HasExtraIn(vs[1..], v) {
          if i :| 0 <= i < |vs| && vs[i].id == v && vs[i].priceExtra != 0 {
            if i > 0 { assert vs[1..][i - 1] == vs[i]; }
          }
          if i :| 0 <= i < |vs[1..]| && vs[1..][i].id == v && vs[1..][i].priceExtra != 0 {
            assert vs[i + 1] == vs[1..][i];
          }
        }
      }
      (if vs[0].priceExtra != 0 then [vs[0].id] else []) + rest
  }

  /** Some variant of `vs` with id `v` has a surcharge. */
  ghost predicate HasExtraIn(vs: seq<Variant>, v: VariantId) {
    exists i :: 0 <= i < |vs| && vs[i].id == v && vs[i].priceExtra != 0
  }

  /** The variants the rules refer to, in rule order; rules without a variant give none. */
  function RuleVariants(items: seq<Rule>): (r: seq<VariantId>)
    ensures forall v :: v in r <==> IsReferenced(items, v)
    decreases |items|
  {
    if items == [] then []
    else
      var rest := RuleVariants(items[1..]);
      assert forall v: VariantId :: IsReferenced(items, v) <==> items[0].product == Some(v) || IsReferenced(items[1..], v) by {
        forall v: VariantId ensures IsReferenced(items, v) <==> items[0].product == Some(v) || IsReferenced(items[1..], v) {
          if x :| x in items && x.product == Some(v) {
            if x != items[0] { assert x in items[1..]; }
          }
          if x :| x in items[1..] && x.product == Some(v) {
            assert x in items;
          }
        }
      }
      (if items[0].product.Some? then [items[0].product.value] else []) + rest
  }

  /** `variant_items.mapped("product_id")`: the variants the rules refer to, each once. */
  function Referenced(items: seq<Rule>): (r: seq<VariantId>)
    ensures Distinct(r)
    ensures forall v :: v in r <==> IsReferenced(items, v)
  {
    Dedup(RuleVariants(items))
  }

  /** A variant of `t` some rule of `items` refers to. */
  ghost predicate IsReferenced(items: seq<Rule>, v: VariantId) {
    exists x :: x in items && x.product == Some(v)
  }

  /** A variant of `t` with a non-zero surcharge. */
  ghost predicate HasExtra(t: Template, v: VariantId) {
    HasExtraIn(t.variants, v)
  }

  /** The variants the rules refer to plus the first variant of `t` they do not mention. */
  function RuledCandidates(t: Template, items: seq<Rule>): (r: seq<VariantId>)
    requires forall x :: x in items ==> ReferencesVariantOf(t, x)
    ensures forall v :: v in r ==> v in VariantIds(t)
    ensures forall v :: IsReferenced(items, v) ==> v in r
    ensures forall a, b :: a in r && b in r && !IsReferenced(items, a) && !IsReferenced(items, b) ==> a == b
    ensures (exists v :: v in r && !IsReferenced(items, v)) <==> (exists v :: v in VariantIds(t) && !IsReferenced(items, v))
  {
    var ids := VariantIds(t);
    var vs := Referenced(items);
    var other := Take1(Difference(ids, vs));
    assert forall v :: IsReferenced(items, v) ==> v in ids by {
      forall v | IsReferenced(items, v) ensures v in ids {
        var x :| x in items && x.product == Some(v);
        assert ReferencesVariantOf(t, x);
      }
    }
    assert forall v :: v in other ==> v in Difference(ids, vs);
    assert forall v :: v in vs + other <==> v in vs || v in other;
    assert (exists v :: v in ids && !IsReferenced(items, v)) ==> other[0] in vs + other by {
      if v :| v in ids && !IsReferenced(items, v) {
        assert v in Difference(ids, vs);
      }
    }
    vs + other
  }

  /** The first variant of `t` without surcharge, if any. */
  function PlainCandidate(t: Template): (r: seq<VariantId>)
    ensures forall v :: v in r ==> v in VariantIds(t) && !HasExtra(t, v)
    ensures |r| <= 1
    ensures r != [] <==> exists v :: v in VariantIds(t) && !HasExtra(t, v)
  {
    var ids := VariantIds(t);
    var r := Take1(Difference(ids, ExtraPriced(t)));
    assert (exists v :: v in ids && !HasExtra(t, v)) ==> r != [] by {
      if v :| v in ids && !HasExtra(t, v) {
        assert v in Difference(ids, ExtraPriced(t));
      }
    }
    assert r != [] ==> r[0] in r;
    r
  }

  /** The candidate variants of `t`, given the variant-scoped rules `items` found for it. With
      rules: their variants plus the first variant of `t` they do not mention. Without rules: the
      first variant of `t` without surcharge. In both cases every variant with a surcharge. */
  function CandidateVariants(t: Template, items: seq<Rule>): (r: seq<VariantId>)
    requires forall x :: x in items ==> ReferencesVariantOf(t, x)
    ensures Distinct(r)
    ensures forall v :: v in r ==> v in VariantIds(t)
    ensures forall v :: HasExtra(t, v) ==> v in r
    ensures items != [] ==> forall v :: IsReferenced(items, v) ==> v in r
    ensures items != [] ==> forall a, b ::
      a in r && b in r && !IsReferenced(items, a) && !IsReferenced(items, b) && !HasExtra(t, a) && !HasExtra(t, b)
      ==> a == b
    ensures items != [] ==>
      ((exists v :: v in r && !IsReferenced(items, v)) <==> (exists v :: v in VariantIds(t) && !IsReferenced(items, v)))
    ensures items == [] ==> forall a, b :: a in r && b in r && !HasExtra(t, a) && !HasExtra(t, b) ==> a == b
    ensures items == [] ==>
      ((exists v :: v in r && !HasExtra(t, v)) <==> (exists v :: v in VariantIds(t) && !HasExtra(t, v)))
    ensures t.variants != [] ==> r != []
  {
    var extra := ExtraPriced(t);
    var products := if items != [] then RuledCandidates(t, items) else PlainCandidate(t);
    assert forall v :: v in extra ==> v in VariantIds(t) by {
      forall v | v in extra ensures v in VariantIds(t) {
        var i :| 0 <= i < |t.variants| && t.variants[i].id == v && t.variants[i].priceExtra != 0;
        assert VariantIds(t)[i] == v;
      }
    }
    assert t.variants != [] ==> VariantIds(t)[0] in VariantIds(t);
    assert products != [] ==> products[0] in products;
    Union(products, extra)
  }
}

=== FILE: cheapest.dfy ===
/** `_get_cheapest_info` (models/product_template.py): for every template of a batch, the
    variant and quantity the price scan settles on, and the two "distinct price" flags. */
module Cheapest {
  import opened Wrappers
  import opened SeqUtil
  import opened Records
  import opened PricelistGraph
  import opened Candidates
  import opened Scan

  /** The per-template result record. */
  datatype Info = Info(
    productId: Option<VariantId>,
    addQty: int,
    hasDistinctPrice: bool,
    hasDistinctPriceFromTmpl: bool,
    tmplPriceZero: bool)

  /** The template price: the lower of the template's prices at quantity 1 and at the sentinel
      quantity, a missing price counting as the sentinel. */
  function TemplatePrice(env: Env, pl: PricelistId, tmpl: TemplateId): (r: int)
    ensures var atOne := env.templatePrice(pl, tmpl, 1).GetOr(SENTINEL);
            var atMax := env.templatePrice(pl, tmpl, SENTINEL).GetOr(SENTINEL);
      r <= atOne && r <= atMax && (r == atOne || r == atMax)
    ensures env.templatePrice(pl, tmpl, 1).None? && env.templatePrice(pl, tmpl, SENTINEL).None? ==> r == SENTINEL
  {
    var atOne := env.templatePrice(pl, tmpl, 1).GetOr(SENTINEL);
    var atMax := env.templatePrice(pl, tmpl, SENTINEL).GetOr(SENTINEL);
    if atOne <= atMax then atOne else atMax
  }

  /** The candidates of `t` under pricelist `pl`. */
  function TemplateCandidates(env: Env, pl: PricelistId, t: Template): (r: seq<VariantId>)
    ensures Distinct(r)
    ensures forall v :: v in r ==> v in VariantIds(t)
    ensures t.variants != [] ==> r != []
  {
    CandidateVariants(t, PricelistVariantItems(env, t, pl))
  }

  /** The result for one template. The reported variant is a candidate of `t` priced at
      quantity 1 or at the sentinel; the template flag says whether any candidate price differs
      from the template price. With the flag set, the reported variant's price is at most every
      candidate price that differs from the template price (it is not always the cheapest
      overall, see `Scan.NotAlwaysGlobalMinimum`, and may itself equal the template price, see
      `Scan.TemplatePriceAfterDivergenceWins`); without it, the first candidate at quantity 1. */
  function TemplateInfo(env: Env, pl: PricelistId, t: Template): (info: Info)
    ensures info.productId.Some? ==>
      && info.productId.value in TemplateCandidates(env, pl, t)
      && info.productId.value in VariantIds(t)
      && info.addQty in Quantities
    ensures info.productId.None? ==> info.addQty == 0
    ensures info.hasDistinctPriceFromTmpl <==>
      exists v, q :: v in TemplateCandidates(env, pl, t) && q in Quantities
                     && env.variantPrice(pl, v, q) != TemplatePrice(env, pl, t.id)
    ensures info.tmplPriceZero <==> TemplatePrice(env, pl, t.id) == 0
    ensures (forall v, q :: v in TemplateCandidates(env, pl, t) && q in Quantities ==> env.variantPrice(pl, v, q) < SENTINEL) ==>
      (info.hasDistinctPrice <==> CandidatePricesDiffer(env, pl, TemplateCandidates(env, pl, t)))
    // the reported variant's price is at most every candidate price differing from the template price
    ensures info.hasDistinctPriceFromTmpl && info.productId.Some? ==>
      forall v, q :: v in TemplateCandidates(env, pl, t) && q in Quantities
                     && env.variantPrice(pl, v, q) != TemplatePrice(env, pl, t.id) ==>
        env.variantPrice(pl, info.productId.value, info.addQty) <= env.variantPrice(pl, v, q)
    // with every candidate price equal to the template price, the first candidate at quantity 1
    ensures !info.hasDistinctPriceFromTmpl && t.variants != [] && TemplatePrice(env, pl, t.id) < SENTINEL ==>
      info.productId == Some(TemplateCandidates(env, pl, t)[0]) && info.addQty == 1
  {
    var tmplPrice := TemplatePrice(env, pl, t.id);
    var cands := TemplateCandidates(env, pl, t);
    var st := Run(tmplPrice, Observations(env, pl, cands));
    ScanOfCandidates(env, pl, cands, tmplPrice);
    Info(st.productId, st.addQty, st.distinct, st.distinctFromTemplate, tmplPrice == 0)
  }

  /** Records are identified by their ids. */
  predicate IdsIdentify(ts: seq<Template>) {
    forall a, b :: a in ts && b in ts && a.id == b.id ==> a == b
  }

  /** `ts._get_cheapest_info(pl)` with the batch-merging step read as a plain union: one entry per
      template id of the batch, each the result for that template. An empty batch gives an empty
      map. */
  function CheapestInfo(env: Env, pl: PricelistId, ts: seq<Template>): (r: map<TemplateId, Info>)
    requires IdsIdentify(ts)
    ensures r.Keys == set t | t in ts :: t.id
    ensures forall t :: t in ts ==> r[t.id] == TemplateInfo(env, pl, t)
  {
    ById(ts, (t: Template) => TemplateInfo(env, pl, t))
  }

  /** The map from the id of each template of `ts` to `f` of that template. */
  function ById<V>(ts: seq<Template>, f: Template -> V): (r: map<TemplateId, V>)
    requires IdsIdentify(ts)
    ensures r.Keys == set t | t in ts :: t.id
    ensures forall t :: t in ts ==> r[t.id] == f(t)
  {
    var r := map t | t in ts :: t.id := f(t);
    assert forall t :: t in ts ==> t.id in r && r[t.id] == f(t);
    r
  }

  /** Why the resolver can fail. */
  datatype ResolveError = EmptyBatch

  /** `_get_cheapest_info` as written: merging the candidate recordsets with
      `reduce(sum, tmpl_variants.values())` raises on an empty batch, so an empty batch fails
      instead of giving an empty result. */
  function CheapestInfoAsWritten(env: Env, pl: PricelistId, ts: seq<Template>): (r: Result<map<TemplateId, Info>, ResolveError>)
    requires IdsIdentify(ts)
    ensures r.Failure? <==> ts == []
    ensures r.Success? ==> r.value == CheapestInfo(env, pl, ts)
  {
    if ts == [] then Failure(EmptyBatch) else Success(CheapestInfo(env, pl, ts))
  }
}

=== FILE: combination.dfy ===
/** The default combination of `_get_first_possible_combination` (models/product_template.py):
    on a storefront, the attribute values of the cheapest variant, line by line. */
module Combination {
  import opened Wrappers
  import opened SeqUtil
  import opened Records
  import opened Cheapest

  /** The values `values` carries on `line`, or the line's first value when it carries none. */
  function ValuesOnLine(values: seq<ValueId>, line: AttributeLine): (r: seq<ValueId>)
    ensures forall x :: x in r ==> x in line.values
    ensures (exists x :: x in values && x in line.values) ==> forall x :: x in r <==> x in values && x in line.values
    ensures (forall x :: x in values ==> x !in line.values) ==> r == Take1(line.values)
  {
    var own := Filter(values, (x: ValueId) => x in line.values);
    assert (exists x :: x in values && x in line.values) ==> own != [] by {
      if x :| x in values && x in line.values {
        assert x in own;
      }
    }
    assert own != [] ==> own[0] in own;
    if own != [] then own else Take1(line.values)
  }

  /** The combination rebuilt line by line, in line order. */
  function Rebuild(values: seq<ValueId>, lines: seq<AttributeLine>): (r: seq<ValueId>)
    ensures forall x :: x in r ==> exists i :: 0 <= i < |lines| && x in lines[i].values
    decreases |lines|
  {
    if lines == [] then []
    else
      var head := ValuesOnLine(values, lines[0]);
      var rest := Rebuild(values, lines[1..]);
      assert forall x :: x in rest ==> exists i :: 0 <= i < |lines| && x in lines[i].values by {
        forall x | x in rest ensures exists i :: 0 <= i < |lines| && x in lines[i].values {
          var i :| 0 <= i < |lines[1..]| && x in lines[1..][i].values;
          assert lines[i + 1] == lines[1..][i];
        }
      }
      head + rest
  }

  /** A variant carries at most one value of each line (and no value twice). */
  predicate OneValuePerLine(values: seq<ValueId>, lines: seq<AttributeLine>) {
    && Distinct(values)
    && forall i, a, b :: 0 <= i < |lines| && a in values && b in values && a in lines[i].values && b in lines[i].values ==> a == b
  }

  /** The value picked for `line`: the variant's own value on it, or else the line's first value. */
  predicate PicksFromLine(values: seq<ValueId>, line: AttributeLine, x: ValueId)
    requires |line.values| > 0
  {
    && x in line.values
    && if exists y :: y in values && y in line.values then x in values else x == line.values[0]
  }

  lemma AtMostOneOnLine(values: seq<ValueId>, line: AttributeLine)
    requires Distinct(values)
    requires forall a, b :: a in values && b in values && a in line.values && b in line.values ==> a == b
    ensures |ValuesOnLine(values, line)| <= 1
  {
    var r := ValuesOnLine(values, line);
    if x :| x in values && x in line.values {
      var own := Filter(values, (x: ValueId) => x in line.values);
      assert r == own;
      assert x in own;
      assert Elems(own) == {x};
      DistinctElems(own);
    }
  }

  /** For well-formed lines and a variant with at most one value per line, the rebuilt combination
      has one value per line, in line order: the variant's value on it, or the line's first
      value. */
  lemma {:induction false} RebuildFollowsLines(values: seq<ValueId>, lines: seq<AttributeLine>)
    requires forall i :: 0 <= i < |lines| ==> |lines[i].values| > 0
    requires OneValuePerLine(values, lines)
    ensures |Rebuild(values, lines)| == |lines|
    ensures forall i :: 0 <= i < |lines| ==> PicksFromLine(values, lines[i], Rebuild(values, lines)[i])
  {
    if lines != [] {
      var head := ValuesOnLine(values, lines[0]);
      var rest := Rebuild(values, lines[1..]);
      OneValuePerLineTail(values, lines);
      RebuildFollowsLines(values, lines[1..]);
      OneValuePicked(values, lines[0]);
      assert Rebuild(values, lines) == head + rest;
      forall i | 0 < i < |lines| ensures PicksFromLine(values, lines[i], Rebuild(values, lines)[i]) {
        assert Rebuild(values, lines)[i] == rest[i - 1];
        assert lines[i] == lines[1..][i - 1];
      }
    }
  }

  /** Dropping the first line keeps a variant's values one per line. */
  lemma OneValuePerLineTail(values: seq<ValueId>, lines: seq<AttributeLine>)
    requires lines != [] && OneValuePerLine(values, lines)
    ensures OneValuePerLine(values, lines[1..])
  {
    forall i, a, b | 0 <= i < |lines[1..]| && a in values && b in values && a in lines[1..][i].values && b in lines[1..][i].values
      ensures a == b
    {
      assert lines[1..][i] == lines[i + 1];
    }
  }

  /** On a non-empty line, a variant with at most one value on it contributes exactly one value,
      the one the line should show. */
  lemma OneValuePicked(values: seq<ValueId>, line: AttributeLine)
    requires |line.values| > 0
    requires Distinct(values)
    requires forall a, b :: a in values && b in values && a in line.values && b in line.values ==> a == b
    ensures |ValuesOnLine(values, line)| == 1
    ensures PicksFromLine(values, line, ValuesOnLine(values, line)[0])
  {
    var head := ValuesOnLine(values, line);
    AtMostOneOnLine(values, line);
    assert head[0] in head;
  }

  /** The variant of `t` with id `id` (`browse(id)`). */
  function FindVariant(t: Template, id: VariantId): (v: Variant)
    requires id in VariantIds(t)
    ensures v in t.variants && v.id == id
  {
    FirstWithId(t.variants, id)
  }

  function FirstWithId(vs: seq<Variant>, id: VariantId): (v: Variant)
    requires exists i :: 0 <= i < |vs| && vs[i].id == id
    ensures v in vs && v.id == id
    decreases |vs|
  {
    if vs[0].id == id then vs[0]
    else
      assert exists i :: 0 <= i < |vs[1..]| && vs[1..][i].id == id by {
        var i :| 0 <= i < |vs| && vs[i].id == id;
        assert vs[1..][i - 1] == vs[i];
      }
      FirstWithId(vs[1..], id)
  }

  /** The combination of the cheapest variant of `t` under pricelist `pl`. With no reported
      variant, `browse(False)` is empty, it has no lines and the combination is empty. */
  function CheapestCombination(env: Env, pl: PricelistId, t: Template): (r: seq<ValueId>)
    ensures TemplateInfo(env, pl, t).productId.None? ==> r == []
    ensures forall x :: x in r ==> exists i :: 0 <= i < |t.validLines| && x in t.validLines[i].values
    ensures TemplateInfo(env, pl, t).productId.Some? ==>
      var v := FindVariant(t, TemplateInfo(env, pl, t).productId.value);
      (forall i :: 0 <= i < |t.validLines| ==> |t.validLines[i].values| > 0) && OneValuePerLine(v.values, t.validLines)
      ==> |r| == |t.validLines|
          && forall i :: 0 <= i < |t.validLines| ==> PicksFromLine(v.values, t.validLines[i], r[i])
  {
    match TemplateInfo(env, pl, t).productId
    case None => []
    case Some(id) =>
      var v := FindVariant(t, id);
      if (forall i :: 0 <= i < |t.validLines| ==> |t.validLines[i].values| > 0) && OneValuePerLine(v.values, t.validLines)
      then RebuildFollowsLines(v.values, t.validLines); Rebuild(v.values, t.validLines)
      else Rebuild(v.values, t.validLines)
  }

  /** `_get_first_possible_combination`: with a storefront pricelist and more than one variant,
      the cheapest variant's combination; otherwise the framework's own result `parent`. */
  function FirstPossibleCombination(env: Env, t: Template, shopPricelist: Option<PricelistId>,
                                    parent: seq<ValueId>): (r: seq<ValueId>)
    ensures shopPricelist.None? || |t.variants| <= 1 ==> r == parent
    ensures shopPricelist.Some? && |t.variants| > 1 ==>
      forall x :: x in r ==> exists i :: 0 <= i < |t.validLines| && x in t.validLines[i].values
    ensures shopPricelist.Some? && |t.variants| > 1 ==> r == CheapestCombination(env, shopPricelist.value, t)
  {
    if shopPricelist.Some? && |t.variants| > 1 then CheapestCombination(env, shopPricelist.value, t) else parent
  }
}

=== FILE: controllers.dfy ===
/** The two JSON endpoints of controllers/main.py, without the request plumbing: the storefront's
    current pricelist `pl` is a parameter. */
module Controllers {
  import opened Wrappers
  import opened SeqUtil
  import opened Records
  import opened PricelistDomain
  import opened Cheapest

  /** A formatted price with the currency's display position and symbol. */
  datatype PriceTag = PriceTag(price: int, currency: Currency)

  /** One element of the `/sale/get_combination_info_minimal_price` answer; `priced` holds the
      optional `price` and `currency` keys. */
  datatype Entry = Entry(id: TemplateId, distinctPrices: bool, distinctPricesTmpl: bool, priced: Option<PriceTag>)

  /** `browse(ids).filtered("is_published")`. */
  function Published(ts: seq<Template>): (r: seq<Template>)
    ensures forall t :: t in r <==> t in ts && t.published
  {
    Filter(ts, (t: Template) => t.published)
  }

  /** The entry for template `t` with resolver result `info`: the id and both flags, and the
      price of the reported variant at the reported quantity when a variant was reported and
      some flag is set. */
  function EntryFor(env: Env, pl: PricelistId, t: Template, info: Info): (e: Entry)
    ensures e.id == t.id
    ensures e.distinctPrices == info.hasDistinctPrice && e.distinctPricesTmpl == info.hasDistinctPriceFromTmpl
    ensures e.priced.Some? <==> info.productId.Some? && (info.hasDistinctPrice || info.hasDistinctPriceFromTmpl)
    ensures e.priced.Some? ==>
      e.priced.value == PriceTag(env.combinationPrice(pl, t.id, info.productId.value, info.addQty), t.currency)
  {
    var priced :=
      if info.productId.Some? && (info.hasDistinctPrice || info.hasDistinctPriceFromTmpl)
      then Some(PriceTag(env.combinationPrice(pl, t.id, info.productId.value, info.addQty), t.currency))
      else None;
    Entry(t.id, info.hasDistinctPrice, info.hasDistinctPriceFromTmpl, priced)
  }

  /** The entries for the published templates, in order, from one batch resolution. */
  function EntriesFrom(env: Env, pl: PricelistId, pub: seq<Template>, info: map<TemplateId, Info>): (r: seq<Entry>)
    requires forall t :: t in pub ==> t.id in info
    ensures |r| == |pub|
    ensures forall i :: 0 <= i < |r| ==> r[i] == EntryFor(env, pl, pub[i], info[pub[i].id])
  {
    seq(|pub|, i requires 0 <= i < |pub| => EntryFor(env, pl, pub[i], info[pub[i].id]))
  }

  /** `get_combination_info_minimal_price`, with an empty batch resolving to no entries: unpublished
      templates are dropped, and every published one gets exactly one entry, in order, computed
      from its own resolver result. */
  function MinimalPriceEntries(env: Env, pl: PricelistId, ts: seq<Template>): (r: seq<Entry>)
    requires IdsIdentify(ts)
    ensures |r| == |Published(ts)|
    ensures forall i :: 0 <= i < |r| ==>
      r[i] == EntryFor(env, pl, Published(ts)[i], TemplateInfo(env, pl, Published(ts)[i]))
    ensures forall e :: e in r ==> exists t :: t in ts && t.published && t.id == e.id
    ensures forall t :: t in ts && t.published ==> exists e :: e in r && e.id == t.id
  {
    var pub := Published(ts);
    PublishedIdsIdentify(ts);
    var info := CheapestInfo(env, pl, pub);
    var r := EntriesFrom(env, pl, pub, info);
    EntriesCoverPublished(env, pl, ts, pub, info, r);
    r
  }

  lemma PublishedIdsIdentify(ts: seq<Template>)
    requires IdsIdentify(ts)
    ensures IdsIdentify(Published(ts))
  {
  }

  lemma EntriesCoverPublished(env: Env, pl: PricelistId, ts: seq<Template>, pub: seq<Template>,
                              info: map<TemplateId, Info>, r: seq<Entry>)
    requires pub == Published(ts)
    requires forall t :: t in pub ==> t.id in info && info[t.id] == TemplateInfo(env, pl, t)
    requires r == EntriesFrom(env, pl, pub, info)
    ensures forall i :: 0 <= i < |r| ==> r[i] == EntryFor(env, pl, pub[i], TemplateInfo(env, pl, pub[i]))
    ensures forall e :: e in r ==> exists t :: t in ts && t.published && t.id == e.id
    ensures forall t :: t in ts && t.published ==> exists e :: e in r && e.id == t.id
  {
    forall i | 0 <= i < |r| ensures r[i] == EntryFor(env, pl, pub[i], TemplateInfo(env, pl, pub[i])) {
      assert pub[i] in pub;
    }
    forall e | e in r ensures exists t :: t in ts && t.published && t.id == e.id {
      var i :| 0 <= i < |r| && r[i] == e;
      assert pub[i] in pub;
    }
    forall t | t in ts && t.published ensures exists e :: e in r && e.id == t.id {
      assert t in pub;
      var i :| 0 <= i < |pub| && pub[i] == t;
      assert r[i] in r;
    }
  }

  /** `get_combination_info_minimal_price` as written: when no requested template is published
      the resolver is called on an empty batch and raises. */
  function MinimalPriceEntriesAsWritten(env: Env, pl: PricelistId, ts: seq<Template>): (r: Result<seq<Entry>, ResolveError>)
    requires IdsIdentify(ts)
    ensures r.Failure? <==> forall t :: t in ts ==> !t.published
    ensures r.Success? ==> r.value == MinimalPriceEntries(env, pl, ts)
  {
    var pub := Published(ts);
    assert pub != [] ==> pub[0] in pub;
    match CheapestInfoAsWritten(env, pl, pub)
    case Failure(e) => Failure(e)
    case Success(info) => Success(EntriesFrom(env, pl, pub, info))
  }

  /** The as-written endpoint fails on a non-empty request of unpublished templates, where the
      corrected one answers with no entries. */
  lemma UnpublishedRequestFails(env: Env, pl: PricelistId, t: Template)
    requires !t.published
    ensures MinimalPriceEntriesAsWritten(env, pl, [t]).Failure?
    ensures MinimalPriceEntries(env, pl, [t]) == []
  {
    assert Published([t]) == [];
  }

  /** One row of the quantity scale. */
  datatype ScaleRow = ScaleRow(minQty: int, price: int, currency: Currency)

  /** The minimum quantities of the rules, in order. */
  function MinQuantities(items: seq<Rule>): (r: seq<int>)
    ensures forall q :: q in r <==> exists x :: x in items && x.minQuantity == q
    decreases |items|
  {
    if items == [] then []
    else
      var rest := MinQuantities(items[1..]);
      assert forall x :: x in items <==> x == items[0] || x in items[1..];
      [items[0].minQuantity] + rest
  }

  /** A rule of pricelist `pl` that sets a price break for variant `v`: in scope, with a non-zero
      minimum quantity, and applicable to `v` at that quantity. */
  predicate BreaksPriceOf(env: Env, pl: PricelistId, v: Variant, x: Rule): (b: bool)
    // exactly the `has_min_qty` applicable rules that apply at their own minimum quantity
    ensures b <==> x in ApplicableRules(env, pl, HasMinQty, OfVariant(v.id))
                   && env.isApplicableFor(x, OfVariant(v.id), x.minQuantity)
  {
    && x in env.catalog
    && x.pricelist == pl
    && env.inScope(x, OfVariant(v.id))
    && x.minQuantity != 0
    && env.isApplicableFor(x, OfVariant(v.id), x.minQuantity)
  }

  /** `sorted(set(qty_list))`: the distinct minimum quantities of the price-break rules, ascending. */
  function Breakpoints(env: Env, pl: PricelistId, v: Variant): (r: seq<int>)
    ensures StrictlySorted(r)
    ensures forall q :: q in r <==> exists x :: BreaksPriceOf(env, pl, v, x) && x.minQuantity == q
  {
    var items := ApplicableRules(env, pl, HasMinQty, OfVariant(v.id));
    var breaking := Filter(items, (x: Rule) => env.isApplicableFor(x, OfVariant(v.id), x.minQuantity));
    assert forall x :: x in breaking <==> BreaksPriceOf(env, pl, v, x);
    SortedDistinct(MinQuantities(breaking))
  }

  /** The emission loop over breakpoints `qtys`, starting from last emitted price `last`: a row
      for each breakpoint whose contextual price differs from the last emitted one. */
  function ScaleRows(env: Env, pl: PricelistId, v: Variant, qtys: seq<int>, last: int): (rows: seq<ScaleRow>)
    ensures forall row :: row in rows ==>
      row.minQty in qtys && row.price == env.contextualPrice(pl, v.id, row.minQty) && row.currency == v.currency
    ensures rows != [] ==> rows[0].price != last
    ensures forall i :: 0 < i < |rows| ==> rows[i].price != rows[i - 1].price
    ensures StrictlySorted(qtys) ==> forall i, j :: 0 <= i < j < |rows| ==> rows[i].minQty < rows[j].minQty
    decreases |qtys|
  {
    if qtys == [] then []
    else
      var q := qtys[0];
      var price := env.contextualPrice(pl, v.id, q);
      assert StrictlySorted(qtys) ==> StrictlySorted(qtys[1..]) && forall k :: k in qtys[1..] ==> q < k;
      if price != last then
        [ScaleRow(q, price, v.currency)] + ScaleRows(env, pl, v, qtys[1..], price)
      else
        ScaleRows(env, pl, v, qtys[1..], last)
  }

  /** The price a breakpoint is compared with: that of the previous breakpoint, or `last` for the
      first. */
  function PreviousPrice(env: Env, pl: PricelistId, v: Variant, qtys: seq<int>, last: int, j: int): int
    requires 0 <= j < |qtys|
  {
    if j == 0 then last else env.contextualPrice(pl, v.id, qtys[j - 1])
  }

  /** A breakpoint gets a row iff its price differs from the previous breakpoint's price (or from
      `last` for the first one): the running "last emitted price" is always the price of the
      previous breakpoint. */
  lemma {:induction false} ScaleRowsAreThePriceChanges(env: Env, pl: PricelistId, v: Variant, qtys: seq<int>, last: int)
    requires StrictlySorted(qtys)
    ensures forall j :: 0 <= j < |qtys| ==>
      ((exists row :: row in ScaleRows(env, pl, v, qtys, last) && row.minQty == qtys[j])
       <==> env.contextualPrice(pl, v.id, qtys[j]) != PreviousPrice(env, pl, v, qtys, last, j))
    decreases |qtys|
  {
    if qtys != [] {
      var q := qtys[0];
      var price := env.contextualPrice(pl, v.id, q);
      var rest := ScaleRows(env, pl, v, qtys[1..], price);
      assert StrictlySorted(qtys[1..]);
      ScaleRowsAreThePriceChanges(env, pl, v, qtys[1..], price);
      assert ScaleRows(env, pl, v, qtys, last) == (if price != last then [ScaleRow(q, price, v.currency)] else []) + rest;
      forall j | 0 <= j < |qtys|
        ensures (exists row :: row in ScaleRows(env, pl, v, qtys, last) && row.minQty == qtys[j])
                <==> env.contextualPrice(pl, v.id, qtys[j]) != PreviousPrice(env, pl, v, qtys, last, j)
      {
        if j == 0 {
          assert forall row :: row in rest ==> row.minQty in qtys[1..];
          assert q !in qtys[1..];
        } else {
          assert qtys[1..][j - 1] == qtys[j];
          assert PreviousPrice(env, pl, v, qtys[1..], price, j - 1) == PreviousPrice(env, pl, v, qtys, last, j);
          assert qtys[j] != q;
        }
      }
    }
  }

  /** `get_combination_info_pricelist_atributes`: the scale rows of variant `v` and its unit of
      measure name. */
  function PriceScale(env: Env, pl: PricelistId, v: Variant): (r: (seq<ScaleRow>, string))
    ensures r.1 == v.uomName
    ensures forall row :: row in r.0 ==>
      row.minQty in Breakpoints(env, pl, v) && row.price == env.contextualPrice(pl, v.id, row.minQty)
    ensures forall i, j :: 0 <= i < j < |r.0| ==> r.0[i].minQty < r.0[j].minQty
    ensures r.0 != [] ==> r.0[0].price != env.contextualPrice(pl, v.id, 0)
    ensures forall i :: 0 < i < |r.0| ==> r.0[i].price != r.0[i - 1].price
  {
    (ScaleRows(env, pl, v, Breakpoints(env, pl, v), env.contextualPrice(pl, v.id, 0)), v.uomName)
  }

  /** A breakpoint is omitted from the scale iff its price equals that of the previous breakpoint,
      or the price at quantity 0 for the first breakpoint. */
  lemma PriceScaleOmitsUnchangedPrices(env: Env, pl: PricelistId, v: Variant)
    ensures var qtys := Breakpoints(env, pl, v);
      forall j :: 0 <= j < |qtys| ==>
        ((exists row :: row in PriceScale(env, pl, v).0 && row.minQty == qtys[j])
         <==> env.contextualPrice(pl, v.id, qtys[j]) != PreviousPrice(env, pl, v, qtys, env.contextualPrice(pl, v.id, 0), j))
  {
    ScaleRowsAreThePriceChanges(env, pl, v, Breakpoints(env, pl, v), env.contextualPrice(pl, v.id, 0));
  }
}

=== FILE: pricelist_domain.dfy ===
/** `product.pricelist._get_applicable_rules_domain`: two context flags that narrow the rules the
    framework's own domain selects (models/product_pricelist.py). */
module PricelistDomain {
  import opened SeqUtil
  import opened Records

  /** The two context keys the add-on reads. */
  datatype RuleContext = RuleContext(basedOnPricelist: bool, hasMinQty: bool)

  /** The context of `_get_product_subpricelists`. */
  const BasedOnPricelist := RuleContext(true, false)

  /** The context of the quantity-scale endpoint. */
  const HasMinQty := RuleContext(false, true)

  /** The framework's domain for pricelist `pl` and `product`: rules of that pricelist in scope. */
  function ParentDomain(env: Env, pl: PricelistId, product: ProductRef): Rule -> bool {
    (r: Rule) => r.pricelist == pl && env.inScope(r, product)
  }

  /** The extended domain: the parent domain, AND-ed with the formula-on-pricelist condition
      when `basedOnPricelist` is set, and then with a non-zero minimum quantity when `hasMinQty`
      is set. */
  function RulesDomain(ctx: RuleContext, parent: Rule -> bool): (d: Rule -> bool)
    ensures forall r :: d(r) ==> parent(r)
    ensures ctx.basedOnPricelist ==>
      forall r :: d(r) ==> r.computePrice == Formula && r.base == OtherPricelist
    ensures ctx.hasMinQty ==> forall r :: d(r) ==> r.minQuantity != 0
    ensures forall r ::
      parent(r)
      && (ctx.basedOnPricelist ==> r.computePrice == Formula && r.base == OtherPricelist)
      && (ctx.hasMinQty ==> r.minQuantity != 0)
      ==> d(r)
    ensures !ctx.basedOnPricelist && !ctx.hasMinQty ==> forall r :: d(r) == parent(r)
  {
    var based: Rule -> bool :=
      if ctx.basedOnPricelist
      then (r: Rule) => parent(r) && r.computePrice == Formula && r.base == OtherPricelist
      else parent;
    if ctx.hasMinQty then (r: Rule) => based(r) && r.minQuantity != 0 else based
  }

  /** `pl.with_context(ctx)._get_applicable_rules(product, date)`: the catalog's rules in the
      extended domain, in search order. */
  function ApplicableRules(env: Env, pl: PricelistId, ctx: RuleContext, product: ProductRef): (r: seq<Rule>)
    ensures forall x :: x in r <==>
      && x in env.catalog
      && x.pricelist == pl
      && env.inScope(x, product)
      && (ctx.basedOnPricelist ==> x.computePrice == Formula && x.base == OtherPricelist)
      && (ctx.hasMinQty ==> x.minQuantity != 0)
  {
    Filter(env.catalog, RulesDomain(ctx, ParentDomain(env, pl, product)))
  }
}

=== FILE: pricelist_graph.dfy ===
/** The pricelist-graph walker of models/product_template.py: the pricelists a template's
    prices can be delegated to through "formula, based on another pricelist" rules, and the
    variant-scoped rules found along the way. */
module PricelistGraph {
  import opened Wrappers
  import opened SeqUtil
  import opened Records
  import opened PricelistDomain

  /** `min_quantity or 1`. */
  function QtyOrOne(q: int): int {
    if q == 0 then 1 else q
  }

  /** The condition under which a based-on-pricelist rule contributes its base pricelist: it is
      applicable to the template at its own minimum quantity, or it is scoped to one of the
      template's variants. */
  predicate Feeds(env: Env, t: Template, r: Rule): (b: bool)
    // a rule scoped to one of the template's variants always feeds
    ensures ReferencesVariantOf(t, r) ==> b
    // otherwise applicability decides, at the minimum quantity, or at 1 when that is 0
    ensures !ReferencesVariantOf(t, r) && r.minQuantity != 0 ==>
      (b <==> env.isApplicableFor(r, OfTemplate(t.id), r.minQuantity))
    ensures !ReferencesVariantOf(t, r) && r.minQuantity == 0 ==>
      (b <==> env.isApplicableFor(r, OfTemplate(t.id), 1))
  {
    env.isApplicableFor(r, OfTemplate(t.id), QtyOrOne(r.minQuantity)) || ReferencesVariantOf(t, r)
  }

  /** Pricelist `from` delegates to pricelist `to` for template `t` through rule `r`. */
  ghost predicate LinkRule(env: Env, t: Template, from: PricelistId, r: Rule) {
    && r in env.catalog
    && r.pricelist == from
    && env.inScope(r, OfTemplate(t.id))
    && r.computePrice == Formula
    && r.base == OtherPricelist
    && r.basePricelist.Some?
    && Feeds(env, t, r)
  }

  /** One edge of the pricelist graph as seen from template `t`. */
  ghost predicate LinksTo(env: Env, t: Template, from: PricelistId, to: PricelistId) {
    exists r :: LinkRule(env, t, from, r) && r.basePricelist == Some(to)
  }

  /** A non-empty chain of edges. */
  ghost predicate IsPath(env: Env, t: Template, path: seq<PricelistId>) {
    |path| > 0 && forall i :: 0 <= i < |path| - 1 ==> LinksTo(env, t, path[i], path[i + 1])
  }

  /** `to` is `from` or can be reached from it by following edges. */
  ghost predicate Reachable(env: Env, t: Template, from: PricelistId, to: PricelistId) {
    exists path :: IsPath(env, t, path) && path[0] == from && path[|path| - 1] == to
  }

  /** The loop of `_get_product_subpricelists` from accumulator `acc` over `items`: a rule whose
      base pricelist is already collected is skipped, a feeding rule adds its base pricelist. */
  function CollectBases(env: Env, t: Template, items: seq<Rule>, acc: seq<PricelistId>): (r: seq<PricelistId>)
    requires Distinct(acc)
    ensures Distinct(r)
    ensures forall p :: p in r <==>
      p in acc || exists i :: i in items && Feeds(env, t, i) && i.basePricelist == Some(p)
    decreases |items|
  {
    if items == [] then acc
    else
      var i := items[0];
      var acc' :=
        if i.basePricelist.Some? && i.basePricelist.value in acc then acc
        else if Feeds(env, t, i) && i.basePricelist.Some? then acc + [i.basePricelist.value]
        else acc;
      var r := CollectBases(env, t, items[1..], acc');
      assert forall j :: j in items[1..] ==> j in items;
      assert forall p :: (exists j :: j in items && Feeds(env, t, j) && j.basePricelist == Some(p)) ==>
        (i.basePricelist == Some(p) && Feeds(env, t, i))
        || exists j :: j in items[1..] && Feeds(env, t, j) && j.basePricelist == Some(p);
      r
  }

  /** `_get_product_subpricelists(pl)`: the pricelists `pl` delegates to for template `t`,
      without duplicates. */
  function SubPricelists(env: Env, t: Template, pl: PricelistId): (r: seq<PricelistId>)
    ensures Distinct(r)
    ensures forall p :: p in r <==> LinksTo(env, t, pl, p)
    ensures forall p :: p in r ==> p in BaseIds(env.catalog)
  {
    var items := ApplicableRules(env, pl, BasedOnPricelist, OfTemplate(t.id));
    var r := CollectBases(env, t, items, []);
    assert forall p :: p in r ==> LinksTo(env, t, pl, p) by {
      forall p | p in r ensures LinksTo(env, t, pl, p) {
        var i :| i in items && Feeds(env, t, i) && i.basePricelist == Some(p);
        assert LinkRule(env, t, pl, i);
      }
    }
    assert forall p :: LinksTo(env, t, pl, p) ==> p in r by {
      forall p | LinksTo(env, t, pl, p) ensures p in r {
        var i :| LinkRule(env, t, pl, i) && i.basePricelist == Some(p);
        assert i in items;
      }
    }
    r
  }

  /** `_get_variants_from_pricelist(pls)`: the variant-scoped rules of the pricelists `pls` whose
      variant belongs to `t`, in search order. */
  function VariantItems(env: Env, t: Template, pls: seq<PricelistId>): (r: seq<Rule>)
    ensures forall x :: x in r <==> x in env.catalog && x.pricelist in pls && ReferencesVariantOf(t, x)
  {
    Filter(env.catalog, (x: Rule) => x.pricelist in pls && ReferencesVariantOf(t, x))
  }

  /** What the walk returns: the collected rules and, for the proofs, the pricelists it expanded
      in order. */
  datatype Walked = Walked(items: seq<Rule>, expanded: seq<PricelistId>)

  /** The `while next_pricelists` loop of `_get_pricelist_variant_items`, one iteration per call:
      take the first pending pricelist; if it is not visited yet, add its variant items, append
      its sub-pricelists to the pending ones, and mark it visited; drop it from the pending ones
      in both cases. Terminates because every expansion visits a new base pricelist and every
      other iteration shortens the pending list. */
  function Walk(env: Env, t: Template, next: seq<PricelistId>, visited: set<PricelistId>, res: seq<Rule>): (w: Walked)
    requires forall p :: p in next ==> p in BaseIds(env.catalog)
    ensures forall x :: x in res ==> x in w.items
    ensures Distinct(w.expanded)
    ensures forall p :: p in w.expanded ==> p !in visited && p in BaseIds(env.catalog)
    decreases |BaseIds(env.catalog) - visited|, |next|
  {
    if next == [] then Walked(res, [])
    else
      var p := next[0];
      if p !in visited then
        FewerUnvisited(BaseIds(env.catalog), visited, p);
        var w := Walk(env, t, Without(Union(next, SubPricelists(env, t, p)), p), visited + {p},
                      Union(res, VariantItems(env, t, [p])));
        Walked(w.items, [p] + w.expanded)
      else
        Walk(env, t, Without(next, p), visited, res)
  }

  /** Visiting a new node of `nodes` leaves fewer unvisited ones. */
  lemma FewerUnvisited(nodes: set<PricelistId>, visited: set<PricelistId>, p: PricelistId)
    requires p in nodes && p !in visited
    ensures |nodes - (visited + {p})| < |nodes - visited|
  {
    assert nodes - visited == (nodes - (visited + {p})) + {p};
  }

  /** The state before the loop: the start pricelist's variant items and those of its direct
      sub-pricelists, its sub-pricelists pending, and the start pricelist marked visited. */
  function StartWalk(env: Env, t: Template, start: PricelistId): (w: Walked)
    ensures Distinct(w.items)
    ensures forall x :: x in w.items <==>
      x in env.catalog && ReferencesVariantOf(t, x) && Reachable(env, t, start, x.pricelist)
    ensures Distinct(w.expanded)
    ensures start !in w.expanded
    ensures forall p :: p in w.expanded <==> p != start && Reachable(env, t, start, p)
  {
    var next := SubPricelists(env, t, start);
    var res := Union(VariantItems(env, t, [start]), VariantItems(env, t, next));
    StartStateIsInvariant(env, t, start);
    WalkReachesClosure(env, t, start, next, {start}, res);
    Walk(env, t, next, {start}, res)
  }

  /** `_get_pricelist_variant_items(start)`: every variant-scoped rule of `t`'s variants in the
      start pricelist or a pricelist reachable from it, each once. */
  function PricelistVariantItems(env: Env, t: Template, start: PricelistId): (r: seq<Rule>)
    ensures Distinct(r)
    ensures forall x :: x in r <==>
      x in env.catalog && ReferencesVariantOf(t, x) && Reachable(env, t, start, x.pricelist)
  {
    StartWalk(env, t, start).items
  }

  /** The loop invariant of the walk. */
  ghost predicate WalkInvariant(env: Env, t: Template, start: PricelistId, next: seq<PricelistId>,
                                visited: set<PricelistId>, res: seq<Rule>)
  {
    && (forall p :: p in next ==> p in BaseIds(env.catalog))
    && Distinct(res)
    && start in visited
    && (forall p :: p in visited ==> Reachable(env, t, start, p))
    && (forall p :: p in next ==> Reachable(env, t, start, p))
    // every edge out of a visited pricelist leads to a visited or pending one
    && (forall v, q :: v in visited && LinksTo(env, t, v, q) ==> q in visited || q in next)
    // the collected rules lie between those of the visited and those of the visited or pending
    && (forall x :: x in res ==>
          x in env.catalog && ReferencesVariantOf(t, x) && (x.pricelist in visited || x.pricelist in next))
    && (forall x :: x in env.catalog && ReferencesVariantOf(t, x) && x.pricelist in visited ==> x in res)
  }

  lemma ReachableSelf(env: Env, t: Template, p: PricelistId)
    ensures Reachable(env, t, p, p)
  {
    assert IsPath(env, t, [p]);
  }

  /** Following one more edge from a reachable pricelist stays reachable. */
  lemma {:induction false} ReachableStep(env: Env, t: Template, start: PricelistId, p: PricelistId, q: PricelistId)
    requires Reachable(env, t, start, p)
    requires LinksTo(env, t, p, q)
    ensures Reachable(env, t, start, q)
  {
    var path :| IsPath(env, t, path) && path[0] == start && path[|path| - 1] == p;
    var path' := path + [q];
    assert forall i :: 0 <= i < |path'| - 1 ==> LinksTo(env, t, path'[i], path'[i + 1]) by {
      forall i | 0 <= i < |path'| - 1 ensures LinksTo(env, t, path'[i], path'[i + 1]) {
        if i < |path| - 1 {
          assert path'[i] == path[i] && path'[i + 1] == path[i + 1];
        }
      }
    }
    assert IsPath(env, t, path');
  }

  /** A set that contains `start` and is closed under edges contains every pricelist reachable
      from `start`. */
  lemma {:induction false} ClosedSetHoldsReachable(env: Env, t: Template, start: PricelistId,
                                                   s: set<PricelistId>, p: PricelistId)
    requires start in s
    requires forall v, q :: v in s && LinksTo(env, t, v, q) ==> q in s
    requires Reachable(env, t, start, p)
    ensures p in s
  {
    var path :| IsPath(env, t, path) && path[0] == start && path[|path| - 1] == p;
    var i := 0;
    while i < |path| - 1
      invariant 0 <= i <= |path| - 1
      invariant path[i] in s
    {
      assert LinksTo(env, t, path[i], path[i + 1]);
      i := i + 1;
    }
  }

  lemma StartStateIsInvariant(env: Env, t: Template, start: PricelistId)
    ensures WalkInvariant(env, t, start, SubPricelists(env, t, start), {start},
                          Union(VariantItems(env, t, [start]), VariantItems(env, t, SubPricelists(env, t, start))))
  {
    var next := SubPricelists(env, t, start);
    ReachableSelf(env, t, start);
    forall p | p in next ensures Reachable(env, t, start, p) {
      ReachableStep(env, t, start, start, p);
    }
  }

  /** Expanding the first pending pricelist, not yet visited, keeps the invariant. */
  lemma ExpandKeepsInvariant(env: Env, t: Template, start: PricelistId,
                             next: seq<PricelistId>, visited: set<PricelistId>, res: seq<Rule>)
    requires WalkInvariant(env, t, start, next, visited, res)
    requires next != [] && next[0] !in visited
    ensures WalkInvariant(env, t, start, Without(Union(next, SubPricelists(env, t, next[0])), next[0]),
                          visited + {next[0]}, Union(res, VariantItems(env, t, [next[0]])))
  {
    var p := next[0];
    var sub := SubPricelists(env, t, p);
    forall q | q in sub ensures Reachable(env, t, start, q) {
      ReachableStep(env, t, start, p, q);
    }
  }

  /** Dropping the first pending pricelist when it is already visited keeps the invariant. */
  lemma DropKeepsInvariant(env: Env, t: Template, start: PricelistId,
                           next: seq<PricelistId>, visited: set<PricelistId>, res: seq<Rule>)
    requires WalkInvariant(env, t, start, next, visited, res)
    requires next != [] && next[0] in visited
    ensures WalkInvariant(env, t, start, Without(next, next[0]), visited, res)
  {
  }

  /** With nothing pending, the visited pricelists are exactly the reachable ones. */
  lemma FinishedWalkIsClosure(env: Env, t: Template, start: PricelistId,
                              visited: set<PricelistId>, res: seq<Rule>)
    requires WalkInvariant(env, t, start, [], visited, res)
    ensures forall p :: p in visited <==> Reachable(env, t, start, p)
  {
    forall p | Reachable(env, t, start, p) ensures p in visited {
      ClosedSetHoldsReachable(env, t, start, visited, p);
    }
  }

  /** The walk started in a state satisfying the invariant collects exactly the variant items of
      the pricelists reachable from `start`, and expands exactly the reachable pricelists not
      yet visited, each once. */
  lemma {:induction false} WalkReachesClosure(env: Env, t: Template, start: PricelistId,
                                              next: seq<PricelistId>, visited: set<PricelistId>, res: seq<Rule>)
    requires WalkInvariant(env, t, start, next, visited, res)
    ensures var w := Walk(env, t, next, visited, res);
      && Distinct(w.items)
      && (forall x :: x in w.items <==>
            x in env.catalog && ReferencesVariantOf(t, x) && Reachable(env, t, start, x.pricelist))
      && (forall p :: p in w.expanded <==> p !in visited && Reachable(env, t, start, p))
    decreases |BaseIds(env.catalog) - visited|, |next|
  {
    if next == [] {
      FinishedWalkIsClosure(env, t, start, visited, res);
    } else {
      var p := next[0];
      if p !in visited {
        FewerUnvisited(BaseIds(env.catalog), visited, p);
        var next' := Without(Union(next, SubPricelists(env, t, p)), p);
        var visited' := visited + {p};
        var res' := Union(res, VariantItems(env, t, [p]));
        ExpandKeepsInvariant(env, t, start, next, visited, res);
        WalkReachesClosure(env, t, start, next', visited', res');
        var w' := Walk(env, t, next', visited', res');
        assert Walk(env, t, next, visited, res) == Walked(w'.items, [p] + w'.expanded);
      } else {
        DropKeepsInvariant(env, t, start, next, visited, res);
        WalkReachesClosure(env, t, start, Without(next, p), visited, res);
      }
    }
  }
}

=== FILE: records.dfy ===
/** The records the resolver reads: pricelist rules, product templates and their variants, and
    the pricing engine it delegates to. */
module Records {
  import opened Wrappers

  type PricelistId = nat
  type TemplateId = nat
  type VariantId = nat
  type RuleId = nat
  type ValueId = nat

  /** The "practically unbounded" order quantity. It is also the resolver's initial minimum
      price and the template price used when the pricing engine has no entry. */
  const SENTINEL: int := 99999999

  /** The scope of a rule (`applied_on`: 3_global, 2_product_category, 1_product, 0_product_variant). */
  datatype AppliedOn = Global | Category | ProductTemplate | ProductVariant

  /** `compute_price` of a rule. */
  datatype ComputePrice = Fixed | Percentage | Formula

  /** `base` of a formula rule: what the formula starts from. */
  datatype PriceBase = ListPrice | StandardPrice | OtherPricelist

  /** A pricelist item. `product` is the variant of a variant-scoped rule and `basePricelist`
      the pricelist a "based on another pricelist" formula reads from; either may be empty. */
  datatype Rule = Rule(
    id: RuleId,
    pricelist: PricelistId,
    appliedOn: AppliedOn,
    product: Option<VariantId>,
    minQuantity: int,
    computePrice: ComputePrice,
    base: PriceBase,
    basePricelist: Option<PricelistId>)

  datatype CurrencyPosition = Before | After

  datatype Currency = Currency(position: CurrencyPosition, symbol: string)

  /** A product variant; `values` are its attribute values (`product_template_attribute_value_ids`). */
  datatype Variant = Variant(
    id: VariantId,
    priceExtra: int,
    values: seq<ValueId>,
    currency: Currency,
    uomName: string)

  /** An attribute line of a template with its values, in order. */
  datatype AttributeLine = AttributeLine(values: seq<ValueId>)

  /** A product template with its (active) variants and its valid attribute lines, in order. */
  datatype Template = Template(
    id: TemplateId,
    published: bool,
    variants: seq<Variant>,
    validLines: seq<AttributeLine>,
    currency: Currency)

  /** What a rule is applied to or a price is asked for. */
  datatype ProductRef = OfTemplate(template: TemplateId) | OfVariant(variant: VariantId)

  /** The database and the framework's pricing engine, which this add-on calls but does not define.
      - `catalog`: every pricelist item, in the item model's default search order;
      - `inScope(r, p)`: the framework's own rule domain (product, category and date scope);
      - `isApplicableFor(r, p, q)`: `r._is_applicable_for(p, q)`;
      - `templatePrice(pl, t, q)`: `pl._get_products_price(templates, q).get(t)`;
      - `variantPrice(pl, v, q)`: `pl._get_products_price(variants, q)[v]`;
      - `contextualPrice(pl, v, q)`: `_get_contextual_price()` of `v` at quantity `q` under `pl`;
      - `combinationPrice(pl, t, v, q)`: the `price` of `t._get_combination_info` for `v` at `q`. */
  datatype Env = Env(
    catalog: seq<Rule>,
    inScope: (Rule, ProductRef) -> bool,
    isApplicableFor: (Rule, ProductRef, int) -> bool,
    templatePrice: (PricelistId, TemplateId, int) -> Option<int>,
    variantPrice: (PricelistId, VariantId, int) -> int,
    contextualPrice: (PricelistId, VariantId, int) -> int,
    combinationPrice: (PricelistId, TemplateId, VariantId, int) -> int)

  /** `template.product_variant_ids.ids`. */
  function VariantIds(t: Template): (r: seq<VariantId>)
    ensures |r| == |t.variants|
    ensures forall i :: 0 <= i < |r| ==> r[i] == t.variants[i].id
  {
    seq(|t.variants|, i requires 0 <= i < |t.variants| => t.variants[i].id)
  }

  /** A variant-scoped rule whose variant belongs to `t`. */
  predicate ReferencesVariantOf(t: Template, r: Rule) {
    r.appliedOn == ProductVariant && r.product.Some? && r.product.value in VariantIds(t)
  }

  /** Every pricelist some rule of the catalog is based on: the nodes a walk can reach. */
  function BaseIds(catalog: seq<Rule>): set<PricelistId> {
    set r | r in catalog && r.basePricelist.Some? :: r.basePricelist.value
  }
}

=== FILE: scan.dfy ===
/** The price scan of `_get_cheapest_info` (models/product_template.py): one pass over the
    candidates, each priced at quantity 1 and at the sentinel quantity, keeping a running
    minimum, the variant and quantity that gave it, and two flags. */
module Scan {
  import opened Wrappers
  import opened Records

  /** One priced (candidate, quantity) pair. */
  datatype Observation = Observation(variant: VariantId, qty: int, price: int)

  /** The scan's variables: `min_price`, `product_id`, `add_qty`, `has_distinct_price` and
      `has_distinct_price_from_tmpl`. */
  datatype ScanState = ScanState(
    minPrice: int,
    productId: Option<VariantId>,
    addQty: int,
    distinct: bool,
    distinctFromTemplate: bool)

  /** The state before the first observation. */
  const Initial := ScanState(SENTINEL, None, 0, false, false)

  /** The quantities every candidate is priced at, in scan order. */
  const Quantities: seq<int> := [1, SENTINEL]

  /** The candidates priced at both quantities, candidate by candidate. */
  function Observations(env: Env, pl: PricelistId, candidates: seq<VariantId>): (r: seq<Observation>)
    ensures |r| == |Quantities| * |candidates|
    ensures forall o :: o in r <==>
      o.variant in candidates && o.qty in Quantities && o.price == env.variantPrice(pl, o.variant, o.qty)
    decreases |candidates|
  {
    if candidates == [] then []
    else
      var v := candidates[0];
      [Observation(v, 1, env.variantPrice(pl, v, 1)), Observation(v, SENTINEL, env.variantPrice(pl, v, SENTINEL))]
      + Observations(env, pl, candidates[1..])
  }

  /** An observed price replaces the minimum when it is lower, or while no price different from
      the template price has been accepted yet, when it differs from the template price. */
  predicate Accepts(st: ScanState, tmplPrice: int, price: int): (b: bool)
    // a strictly lower price is always accepted
    ensures price < st.minPrice ==> b
    // once the template flag is set, only a strictly lower price is
    ensures st.distinctFromTemplate ==> (b <==> price < st.minPrice)
    // before it is set, any price different from the template price is, even a higher one
    ensures !st.distinctFromTemplate && price != tmplPrice ==> b
    // the template price never replaces a minimum at or below it
    ensures price == tmplPrice && st.minPrice <= price ==> !b
  {
    price < st.minPrice || (!st.distinctFromTemplate && price != tmplPrice)
  }

  /** One iteration of the inner loop. */
  function Step(st: ScanState, tmplPrice: int, o: Observation): (r: ScanState)
    // the template flag is sticky and records any price different from the template price
    ensures r.distinctFromTemplate == (st.distinctFromTemplate || o.price != tmplPrice)
    // the distinct flag is sticky and cannot be raised while no minimum is established
    ensures st.distinct ==> r.distinct
    ensures st.minPrice == SENTINEL ==> r.distinct == st.distinct
    // minimum, variant and quantity change together, to the observed ones
    ensures || (r.minPrice, r.productId, r.addQty) == (o.price, Some(o.variant), o.qty)
            || (r.minPrice, r.productId, r.addQty) == (st.minPrice, st.productId, st.addQty)
    // once the template flag is set, only a strictly lower price is accepted
    ensures st.distinctFromTemplate ==>
      if o.price < st.minPrice then (r.minPrice, r.productId, r.addQty) == (o.price, Some(o.variant), o.qty)
      else (r.minPrice, r.productId, r.addQty) == (st.minPrice, st.productId, st.addQty)
  {
    var distinct := st.distinct || (o.price != st.minPrice && st.minPrice != SENTINEL);
    if Accepts(st, tmplPrice, o.price) then
      var fromTemplate := if !st.distinctFromTemplate then o.price != tmplPrice else st.distinctFromTemplate;
      ScanState(o.price, Some(o.variant), o.qty, distinct, fromTemplate)
    else
      st.(distinct := distinct)
  }

  /** The state after scanning `obs` in order. While no observation has been accepted, the
      variables keep their initial values: the minimum stays the sentinel, the quantity 0 and the
      distinct flag unset. */
  function Run(tmplPrice: int, obs: seq<Observation>): (st: ScanState)
    ensures st.productId.None? ==> st.minPrice == SENTINEL && st.addQty == 0 && !st.distinct
    decreases |obs|
  {
    if obs == [] then Initial else Step(Run(tmplPrice, obs[..|obs| - 1]), tmplPrice, obs[|obs| - 1])
  }

  /** `has_distinct_price_from_tmpl` ends true iff some observed price differs from the template
      price. */
  lemma {:induction false} RunFlagsDivergence(tmplPrice: int, obs: seq<Observation>)
    ensures Run(tmplPrice, obs).distinctFromTemplate <==> exists k :: 0 <= k < |obs| && obs[k].price != tmplPrice
  {
    if obs != [] {
      var init := obs[..|obs| - 1];
      RunFlagsDivergence(tmplPrice, init);
      assert forall k :: 0 <= k < |init| ==> init[k] == obs[k];
    }
  }

  /** The reported variant, quantity and minimum are one observation; with no accepted
      observation the quantity is 0 and the minimum the sentinel. */
  lemma {:induction false} RunReportsObservation(tmplPrice: int, obs: seq<Observation>)
    ensures var st := Run(tmplPrice, obs);
      && (st.productId.Some? ==> Observation(st.productId.value, st.addQty, st.minPrice) in obs)
      && (st.productId.None? ==> st.addQty == 0 && st.minPrice == SENTINEL)
  {
    if obs != [] {
      var init := obs[..|obs| - 1];
      RunReportsObservation(tmplPrice, init);
      assert forall o :: o in init ==> o in obs;
      assert obs[|obs| - 1] in obs;
    }
  }

  /** All observed prices are equal. */
  predicate AllSamePrice(obs: seq<Observation>) {
    forall j, k :: 0 <= j < |obs| && 0 <= k < |obs| ==> obs[j].price == obs[k].price
  }

  lemma {:induction false} RunDistinctInvariant(tmplPrice: int, obs: seq<Observation>)
    requires obs != []
    requires forall k :: 0 <= k < |obs| ==> obs[k].price < SENTINEL
    ensures AllSamePrice(obs) ==> Run(tmplPrice, obs).minPrice == obs[0].price && !Run(tmplPrice, obs).distinct
    ensures !AllSamePrice(obs) ==> Run(tmplPrice, obs).distinct
  {
    var init := obs[..|obs| - 1];
    var last := obs[|obs| - 1];
    if init == [] {
      assert obs == [last];
    } else {
      RunDistinctInvariant(tmplPrice, init);
      assert forall k :: 0 <= k < |init| ==> init[k] == obs[k];
      if AllSamePrice(init) {
        if last.price == init[0].price {
          assert AllSamePrice(obs);
        } else {
          assert !AllSamePrice(obs) by { assert obs[0].price != obs[|obs| - 1].price; }
        }
      } else {
        assert !AllSamePrice(obs) by {
          var j, k :| 0 <= j < |init| && 0 <= k < |init| && init[j].price != init[k].price;
          assert obs[j].price != obs[k].price;
        }
      }
    }
  }

  /** When every price is below the sentinel, `has_distinct_price` ends true iff the observed
      prices are not all equal. */
  lemma RunDistinctIffPricesDiffer(tmplPrice: int, obs: seq<Observation>)
    requires forall k :: 0 <= k < |obs| ==> obs[k].price < SENTINEL
    ensures Run(tmplPrice, obs).distinct <==> !AllSamePrice(obs)
  {
    if obs != [] {
      RunDistinctInvariant(tmplPrice, obs);
    }
  }

  /** No observed price differs from the template price in `obs[..k]`. */
  predicate MatchesTemplateBefore(tmplPrice: int, obs: seq<Observation>, k: int)
    requires 0 <= k <= |obs|
  {
    forall j :: 0 <= j < k ==> obs[j].price == tmplPrice
  }

  /** While every price equals the template price and the template price is below the sentinel,
      the first observation is reported at the template price; with the template price at or
      above the sentinel no variant is reported. The template flag stays unset. */
  lemma {:induction false} RunWithoutDivergence(tmplPrice: int, obs: seq<Observation>)
    requires MatchesTemplateBefore(tmplPrice, obs, |obs|)
    ensures var st := Run(tmplPrice, obs);
      && st.minPrice == (if obs != [] && tmplPrice < SENTINEL then tmplPrice else SENTINEL)
      && (st.productId.Some? <==> obs != [] && tmplPrice < SENTINEL)
      && (obs != [] && tmplPrice < SENTINEL ==> st.productId == Some(obs[0].variant) && st.addQty == obs[0].qty)
      && !st.distinctFromTemplate
  {
    if obs != [] {
      var init := obs[..|obs| - 1];
      assert forall k :: 0 <= k < |init| ==> init[k] == obs[k];
      RunWithoutDivergence(tmplPrice, init);
      if init == [] {
        assert obs == [obs[0]];
      }
    }
  }

  /** From the first observation whose price differs from the template price onwards, the scan is
      a plain running minimum: the reported minimum is the lowest price observed from there on. */
  lemma {:induction false} RunMinimumAfterDivergence(tmplPrice: int, obs: seq<Observation>, k: int)
    requires 0 <= k < |obs|
    requires obs[k].price != tmplPrice
    requires MatchesTemplateBefore(tmplPrice, obs, k)
    ensures var st := Run(tmplPrice, obs);
      && st.distinctFromTemplate
      && (forall j :: k <= j < |obs| ==> st.minPrice <= obs[j].price)
      && (exists j :: k <= j < |obs| && st.minPrice == obs[j].price)
    decreases |obs|
  {
    var init := obs[..|obs| - 1];
    var last := obs[|obs| - 1];
    assert forall j :: 0 <= j < |init| ==> init[j] == obs[j];
    if k == |obs| - 1 {
      RunWithoutDivergence(tmplPrice, init);
    } else {
      RunMinimumAfterDivergence(tmplPrice, init, k);
    }
  }

  /** When the very first observed price differs from the template price, the reported minimum is
      the lowest observed price. */
  lemma GlobalMinimumWhenFirstDiverges(tmplPrice: int, obs: seq<Observation>)
    requires obs != [] && obs[0].price != tmplPrice
    ensures forall j :: 0 <= j < |obs| ==> Run(tmplPrice, obs).minPrice <= obs[j].price
  {
    RunMinimumAfterDivergence(tmplPrice, obs, 0);
  }

  /** The tie-break does not always report the lowest observed price: with template price 10 and
      observed prices 10 then 12, the 10 is accepted without raising the template flag, and the
      12 then replaces it because it differs from the template price. */
  lemma NotAlwaysGlobalMinimum()
    ensures var obs := [Observation(1, 1, 10), Observation(2, 1, 12)];
      && Run(10, obs).minPrice == 12
      && Run(10, obs).productId == Some(2)
      && obs[0].price < Run(10, obs).minPrice
  {
    var obs := [Observation(1, 1, 10), Observation(2, 1, 12)];
    assert obs[..1] == [obs[0]];
    assert [obs[0]][..0] == [];
  }

  /** Once the template flag is raised, a later observation at the template price still wins when
      it is lower: with template price 10 and observed prices 12 then 10, the scan reports 10 at
      the second quantity, so the reported price need not differ from the template price. */
  lemma TemplatePriceAfterDivergenceWins()
    ensures var obs := [Observation(1, 1, 12), Observation(1, SENTINEL, 10)];
      && Run(10, obs).distinctFromTemplate
      && Run(10, obs).minPrice == 10
      && Run(10, obs).productId == Some(1)
      && Run(10, obs).addQty == SENTINEL
  {
    var obs := [Observation(1, 1, 12), Observation(1, SENTINEL, 10)];
    assert obs[..1] == [obs[0]];
    assert [obs[0]][..0] == [];
    var first := Run(10, [obs[0]]);
    assert Run(10, [obs[0]][..0]) == Initial;
    assert first == Step(Initial, 10, obs[0]);
    assert first.minPrice == 12 && first.distinctFromTemplate;
    assert Run(10, obs) == Step(first, 10, obs[1]);
  }

  /** The scan over candidates priced at both quantities reports a candidate at one of the two
      quantities whose price there is the reported minimum, and raises the template flag iff
      some candidate's price at some quantity differs from the template price. With the flag
      raised, the reported price is at most every candidate price that differs from the template
      price, and at most every price observed from the first differing observation onwards; it
      can be a template-priced observation met later (see `TemplatePriceAfterDivergenceWins`).
      Without the flag, the first candidate is reported at quantity 1. */
  lemma ScanOfCandidates(env: Env, pl: PricelistId, candidates: seq<VariantId>, tmplPrice: int)
    ensures var st := Run(tmplPrice, Observations(env, pl, candidates));
      && (st.productId.Some? ==>
            && st.productId.value in candidates
            && st.addQty in Quantities
            && env.variantPrice(pl, st.productId.value, st.addQty) == st.minPrice)
      && (st.productId.None? ==> st.addQty == 0 && st.minPrice == SENTINEL)
      && (st.distinctFromTemplate <==>
            exists v, q :: v in candidates && q in Quantities && env.variantPrice(pl, v, q) != tmplPrice)
      && ((forall v, q :: v in candidates && q in Quantities ==> env.variantPrice(pl, v, q) < SENTINEL) ==>
            (st.distinct <==> CandidatePricesDiffer(env, pl, candidates)))
      && (st.distinctFromTemplate && st.productId.Some? ==>
            forall v, q :: v in candidates && q in Quantities && env.variantPrice(pl, v, q) != tmplPrice ==>
              env.variantPrice(pl, st.productId.value, st.addQty) <= env.variantPrice(pl, v, q))
      && (!st.distinctFromTemplate && candidates != [] && tmplPrice < SENTINEL ==>
            st.productId == Some(candidates[0]) && st.addQty == 1)
    ensures var obs := Observations(env, pl, candidates);
      forall k, j :: 0 <= k <= j < |obs| && obs[k].price != tmplPrice && MatchesTemplateBefore(tmplPrice, obs, k) ==>
        Run(tmplPrice, obs).minPrice <= obs[j].price
  {
    var obs := Observations(env, pl, candidates);
    var st := Run(tmplPrice, obs);
    forall k, j | 0 <= k <= j < |obs| && obs[k].price != tmplPrice && MatchesTemplateBefore(tmplPrice, obs, k)
      ensures st.minPrice <= obs[j].price
    {
      RunMinimumAfterDivergence(tmplPrice, obs, k);
    }
    RunReportsObservation(tmplPrice, obs);
    RunFlagsDivergence(tmplPrice, obs);
    if st.distinctFromTemplate {
      var k :| 0 <= k < |obs| && obs[k].price != tmplPrice;
      assert obs[k] in obs;
    }
    if v, q :| v in candidates && q in Quantities && env.variantPrice(pl, v, q) != tmplPrice {
      var o := Observation(v, q, env.variantPrice(pl, v, q));
      assert o in obs;
      var k :| 0 <= k < |obs| && obs[k] == o;
    }
    if forall v, q :: v in candidates && q in Quantities ==> env.variantPrice(pl, v, q) < SENTINEL {
      DistinctFlagOfCandidates(env, pl, candidates, tmplPrice);
    }
    CheapestAmongDivergent(env, pl, candidates, tmplPrice);
    FirstCandidateWithoutDivergence(env, pl, candidates, tmplPrice);
  }

  /** The first observation whose price differs from the template price. */
  lemma FirstDivergence(tmplPrice: int, obs: seq<Observation>) returns (k: int)
    requires exists j :: 0 <= j < |obs| && obs[j].price != tmplPrice
    ensures 0 <= k < |obs| && obs[k].price != tmplPrice
    ensures MatchesTemplateBefore(tmplPrice, obs, k)
  {
    k := 0;
    while obs[k].price == tmplPrice
      invariant 0 <= k < |obs|
      invariant MatchesTemplateBefore(tmplPrice, obs, k)
      invariant exists j :: k <= j < |obs| && obs[j].price != tmplPrice
      decreases |obs| - k
    {
      k := k + 1;
    }
  }

  /** Once some candidate price differs from the template price, the reported variant's price is
      at most every candidate price that differs from the template price. */
  lemma CheapestAmongDivergent(env: Env, pl: PricelistId, candidates: seq<VariantId>, tmplPrice: int)
    ensures var st := Run(tmplPrice, Observations(env, pl, candidates));
      st.distinctFromTemplate && st.productId.Some? ==>
        forall v, q :: v in candidates && q in Quantities && env.variantPrice(pl, v, q) != tmplPrice ==>
          env.variantPrice(pl, st.productId.value, st.addQty) <= env.variantPrice(pl, v, q)
  {
    var obs := Observations(env, pl, candidates);
    var st := Run(tmplPrice, obs);
    RunFlagsDivergence(tmplPrice, obs);
    RunReportsObservation(tmplPrice, obs);
    if st.distinctFromTemplate && st.productId.Some? {
      var k := FirstDivergence(tmplPrice, obs);
      RunMinimumAfterDivergence(tmplPrice, obs, k);
      assert env.variantPrice(pl, st.productId.value, st.addQty) == st.minPrice;
      forall v, q | v in candidates && q in Quantities && env.variantPrice(pl, v, q) != tmplPrice
        ensures st.minPrice <= env.variantPrice(pl, v, q)
      {
        var o := Observation(v, q, env.variantPrice(pl, v, q));
        assert o in obs;
        var j :| 0 <= j < |obs| && obs[j] == o;
        assert k <= j;
      }
    }
  }

  /** With no candidate price differing from a template price below the sentinel, the first
      candidate is reported at quantity 1. */
  lemma FirstCandidateWithoutDivergence(env: Env, pl: PricelistId, candidates: seq<VariantId>, tmplPrice: int)
    ensures var st := Run(tmplPrice, Observations(env, pl, candidates));
      !st.distinctFromTemplate && candidates != [] && tmplPrice < SENTINEL ==>
        st.productId == Some(candidates[0]) && st.addQty == 1
  {
    var obs := Observations(env, pl, candidates);
    var st := Run(tmplPrice, obs);
    RunFlagsDivergence(tmplPrice, obs);
    if !st.distinctFromTemplate && candidates != [] && tmplPrice < SENTINEL {
      assert MatchesTemplateBefore(tmplPrice, obs, |obs|);
      RunWithoutDivergence(tmplPrice, obs);
      assert obs[0] == Observation(candidates[0], 1, env.variantPrice(pl, candidates[0], 1));
    }
  }

  /** Two candidate prices, at any of the two quantities, differ. */
  ghost predicate CandidatePricesDiffer(env: Env, pl: PricelistId, candidates: seq<VariantId>) {
    exists v, q, w, r :: v in candidates && w in candidates && q in Quantities && r in Quantities
                         && env.variantPrice(pl, v, q) != env.variantPrice(pl, w, r)
  }

  /** With every candidate price below the sentinel, `has_distinct_price` ends true iff two
      candidate prices differ. */
  lemma DistinctFlagOfCandidates(env: Env, pl: PricelistId, candidates: seq<VariantId>, tmplPrice: int)
    requires forall v, q :: v in candidates && q in Quantities ==> env.variantPrice(pl, v, q) < SENTINEL
    ensures Run(tmplPrice, Observations(env, pl, candidates)).distinct <==> CandidatePricesDiffer(env, pl, candidates)
  {
    var obs := Observations(env, pl, candidates);
    assert forall k :: 0 <= k < |obs| ==> obs[k].price < SENTINEL by {
      forall k | 0 <= k < |obs| ensures obs[k].price < SENTINEL {
        assert obs[k] in obs;
      }
    }
    RunDistinctIffPricesDiffer(tmplPrice, obs);
    UnequalObservationsDiffer(env, pl, candidates);
    DifferingPricesAreObserved(env, pl, candidates);
  }

  /** Two unequal observed prices are two differing candidate prices. */
  lemma UnequalObservationsDiffer(env: Env, pl: PricelistId, candidates: seq<VariantId>)
    ensures !AllSamePrice(Observations(env, pl, candidates)) ==> CandidatePricesDiffer(env, pl, candidates)
  {
    var obs := Observations(env, pl, candidates);
    if !AllSamePrice(obs) {
      var j, k :| 0 <= j < |obs| && 0 <= k < |obs| && obs[j].price != obs[k].price;
      assert obs[j] in obs && obs[k] in obs;
    }
  }

  /** Two differing candidate prices are two unequal observed prices. */
  lemma DifferingPricesAreObserved(env: Env, pl: PricelistId, candidates: seq<VariantId>)
    ensures CandidatePricesDiffer(env, pl, candidates) ==> !AllSamePrice(Observations(env, pl, candidates))
  {
    var obs := Observations(env, pl, candidates);
    if CandidatePricesDiffer(env, pl, candidates) {
      var v, q, w, r :| v in candidates && w in candidates && q in Quantities && r in Quantities
                        && env.variantPrice(pl, v, q) != env.variantPrice(pl, w, r);
      var a := Observation(v, q, env.variantPrice(pl, v, q));
      var b := Observation(w, r, env.variantPrice(pl, w, r));
      assert a in obs && b in obs;
      var j :| 0 <= j < |obs| && obs[j] == a;
      var k :| 0 <= k < |obs| && obs[k] == b;
    }
  }

}

=== FILE: scenarios.dfy ===
/** The two resolver tests of tests/test_product_template.py, on the data they set up: a template
    with variants V1 and V2 in a category, a main pricelist whose category rule is a formula based
    on an auxiliary pricelist, and the auxiliary pricelist pricing V1, V2 and the template. */
module Scenarios {
  import opened Wrappers
  import opened SeqUtil
  import opened Records
  import opened PricelistGraph
  import opened Candidates
  import opened Scan
  import opened Cheapest

  /** The test sets no currency; the resolver does not read it. */
  const CompanyCurrency := Currency(Before, "")
  /** The two variants, one per value of the test attribute, in the default unit. */
  const V1 := Variant(1, 0, [11], CompanyCurrency, "Units")
  const V2 := Variant(2, 0, [12], CompanyCurrency, "Units")
  /** "My product test with no prices": published, one attribute line with both values. */
  const TestTemplate := Template(100, true, [V1, V2], [AttributeLine([11, 12])], CompanyCurrency)
  const Main: PricelistId := 1
  const Aux: PricelistId := 2

  /** The auxiliary pricelist's fixed price for V1, with its minimum quantity. */
  function RuleV1(minQty: int): Rule {
    Rule(1, Aux, ProductVariant, Some(1), minQty, Fixed, ListPrice, None)
  }
  const RuleV2 := Rule(2, Aux, ProductVariant, Some(2), 0, Fixed, ListPrice, None)
  const RuleTemplate := Rule(3, Aux, ProductTemplate, None, 0, Fixed, ListPrice, None)
  const RuleCategory := Rule(4, Main, Category, None, 0, Formula, OtherPricelist, Some(Aux))

  /** The database and the prices the pricing engine gives for it: V1 at `v1Price` from
      `v1MinQty` units on and at the template's 14 below, V2 at 11. */
  function Setup(catalog: seq<Rule>, v1MinQty: int, v1Price: int): Env {
    Env(
      catalog,
      (r: Rule, p: ProductRef) => true,
      (r: Rule, p: ProductRef, q: int) => r.minQuantity <= q,
      (pl: PricelistId, t: TemplateId, q: int) => Some(14),
      (pl: PricelistId, v: VariantId, q: int) => if v == 1 then (if v1MinQty <= q then v1Price else 14) else 11,
      (pl: PricelistId, v: VariantId, q: int) => 0,
      (pl: PricelistId, t: TemplateId, v: VariantId, q: int) => 0)
  }

  /** The auxiliary pricelist's rules in either order, followed by the template rule and the
      main pricelist's category rule. */
  predicate ShopCatalog(catalog: seq<Rule>, v1MinQty: int) {
    || catalog == [RuleV1(v1MinQty), RuleV2, RuleTemplate, RuleCategory]
    || catalog == [RuleV2, RuleV1(v1MinQty), RuleTemplate, RuleCategory]
  }

  /** The walk from the main pricelist follows the category rule to the auxiliary pricelist and
      collects exactly the two variant rules. */
  lemma TestVariantItems(env: Env, v1MinQty: int)
    requires ShopCatalog(env.catalog, v1MinQty)
    requires Reachable(env, TestTemplate, Main, Aux)
    ensures forall x :: x in PricelistVariantItems(env, TestTemplate, Main) <==> x == RuleV1(v1MinQty) || x == RuleV2
  {
    var items := PricelistVariantItems(env, TestTemplate, Main);
    AuxVariantRulesCollected(env, v1MinQty);
    forall x | x in items ensures x == RuleV1(v1MinQty) || x == RuleV2 {
      OnlyVariantRules(env, v1MinQty, x);
    }
  }

  /** Both variant rules lie in the auxiliary pricelist and are collected. */
  lemma AuxVariantRulesCollected(env: Env, v1MinQty: int)
    requires ShopCatalog(env.catalog, v1MinQty)
    requires Reachable(env, TestTemplate, Main, Aux)
    ensures RuleV1(v1MinQty) in PricelistVariantItems(env, TestTemplate, Main)
    ensures RuleV2 in PricelistVariantItems(env, TestTemplate, Main)
  {
    TestTemplateVariants();
    assert ReferencesVariantOf(TestTemplate, RuleV1(v1MinQty));
    assert ReferencesVariantOf(TestTemplate, RuleV2);
  }

  /** The only variant-scoped rules of the catalog are the two of the auxiliary pricelist. */
  lemma OnlyVariantRules(env: Env, v1MinQty: int, x: Rule)
    requires ShopCatalog(env.catalog, v1MinQty)
    requires x in env.catalog && ReferencesVariantOf(TestTemplate, x)
    ensures x == RuleV1(v1MinQty) || x == RuleV2
  {
  }

  /** The test template's variants are V1 and V2. */
  lemma TestTemplateVariants()
    ensures VariantIds(TestTemplate) == [1, 2]
    ensures forall v :: v in VariantIds(TestTemplate) <==> v == 1 || v == 2
  {
    assert VariantIds(TestTemplate)[0] == 1 && VariantIds(TestTemplate)[1] == 2;
  }

  /** The category rule links the main pricelist to the auxiliary one. */
  lemma MainLinksToAux(catalog: seq<Rule>, v1MinQty: int, v1Price: int)
    requires ShopCatalog(catalog, v1MinQty)
    ensures Reachable(Setup(catalog, v1MinQty, v1Price), TestTemplate, Main, Aux)
  {
    var env := Setup(catalog, v1MinQty, v1Price);
    assert Feeds(env, TestTemplate, RuleCategory);
    assert LinkRule(env, TestTemplate, Main, RuleCategory);
    assert IsPath(env, TestTemplate, [Main, Aux]);
  }

  /** With both variants named by rules, the candidates are the two variants, in some order. */
  lemma TestCandidates(items: seq<Rule>, v1MinQty: int)
    requires Distinct(items)
    requires forall x :: x in items <==> x == RuleV1(v1MinQty) || x == RuleV2
    ensures forall x :: x in items ==> ReferencesVariantOf(TestTemplate, x)
    ensures CandidateVariants(TestTemplate, items) in {[1, 2], [2, 1]}
  {
    TestTemplateVariants();
    assert forall x :: x in items ==> ReferencesVariantOf(TestTemplate, x);
    var r := CandidateVariants(TestTemplate, items);
    assert RuleV1(v1MinQty) in items && RuleV2 in items;
    assert IsReferenced(items, 1) && IsReferenced(items, 2);
    TwoDistinct(r, 1, 2);
  }

  /** A sequence without duplicates holding exactly `a` and `b` lists them in one of two orders. */
  lemma TwoDistinct(r: seq<int>, a: int, b: int)
    requires a != b && Distinct(r)
    requires forall v :: v in r <==> v == a || v == b
    ensures r == [a, b] || r == [b, a]
  {
    assert Elems(r) == {a, b};
    DistinctElems(r);
    assert r[0] in r && r[1] in r;
  }

  /** Appending one observation runs one more step. */
  lemma RunSnoc(tmplPrice: int, obs: seq<Observation>, o: Observation)
    ensures Run(tmplPrice, obs + [o]) == Step(Run(tmplPrice, obs), tmplPrice, o)
  {
    assert (obs + [o])[..|obs|] == obs;
  }

  /** The scan over two candidates, each priced at both quantities. */
  lemma RunOfTwo(tmplPrice: int, a: Observation, b: Observation, c: Observation, d: Observation)
    ensures Run(tmplPrice, [a, b, c, d]) ==
      Step(Step(Step(Step(Initial, tmplPrice, a), tmplPrice, b), tmplPrice, c), tmplPrice, d)
  {
    RunSnoc(tmplPrice, [], a);
    RunSnoc(tmplPrice, [a], b);
    RunSnoc(tmplPrice, [a, b], c);
    RunSnoc(tmplPrice, [a, b, c], d);
    assert [] + [a] == [a];
    assert [a] + [b] == [a, b];
    assert [a, b] + [c] == [a, b, c];
    assert [a, b, c] + [d] == [a, b, c, d];
  }

  /** The observations of two candidates. */
  lemma ObservationsOfTwo(env: Env, pl: PricelistId, v: VariantId, w: VariantId)
    ensures Observations(env, pl, [v, w]) ==
      [Observation(v, 1, env.variantPrice(pl, v, 1)), Observation(v, SENTINEL, env.variantPrice(pl, v, SENTINEL)),
       Observation(w, 1, env.variantPrice(pl, w, 1)), Observation(w, SENTINEL, env.variantPrice(pl, w, SENTINEL))]
  {
    assert [v, w][1..] == [w];
    assert [w][1..] == [];
  }

  /** The candidates of the test template under the main pricelist are its two variants. */
  lemma TestTemplateCandidates(catalog: seq<Rule>, v1MinQty: int, v1Price: int)
    requires ShopCatalog(catalog, v1MinQty)
    ensures TemplateCandidates(Setup(catalog, v1MinQty, v1Price), Main, TestTemplate) in {[1, 2], [2, 1]}
  {
    var env := Setup(catalog, v1MinQty, v1Price);
    MainLinksToAux(catalog, v1MinQty, v1Price);
    TestVariantItems(env, v1MinQty);
    TestCandidates(PricelistVariantItems(env, TestTemplate, Main), v1MinQty);
  }

  /** The result for the test template is the outcome of the scan over its candidates at price 14. */
  lemma TestTemplateInfo(catalog: seq<Rule>, v1MinQty: int, v1Price: int)
    requires ShopCatalog(catalog, v1MinQty)
    ensures var env := Setup(catalog, v1MinQty, v1Price);
      var st := Run(14, Observations(env, Main, TemplateCandidates(env, Main, TestTemplate)));
      TemplateInfo(env, Main, TestTemplate) == Info(st.productId, st.addQty, st.distinct, st.distinctFromTemplate, false)
  {
    var env := Setup(catalog, v1MinQty, v1Price);
    assert TemplatePrice(env, Main, TestTemplate.id) == 14;
  }

  /** The scan over V1 and V2 in either order, with V1 at 14 for one unit and 10 at the sentinel
      quantity and V2 at 11 throughout: V1 at the sentinel quantity wins. */
  lemma ScanPicksBulkPrice(env: Env, cands: seq<VariantId>)
    requires cands in {[1, 2], [2, 1]}
    requires env.variantPrice(Main, 1, 1) == 14 && env.variantPrice(Main, 1, SENTINEL) == 10
    requires env.variantPrice(Main, 2, 1) == 11 && env.variantPrice(Main, 2, SENTINEL) == 11
    ensures var st := Run(14, Observations(env, Main, cands));
      st.distinct && st.productId == Some(1) && st.addQty == SENTINEL
  {
    ObservationsOfTwo(env, Main, cands[0], cands[1]);
    var obs := Observations(env, Main, cands);
    RunOfTwo(14, obs[0], obs[1], obs[2], obs[3]);
  }

  /** The scan over V1 and V2 in either order, both at 11 throughout: the first candidate at one
      unit wins, with no distinct prices but a price below the template's. */
  lemma ScanOfEqualPrices(env: Env, cands: seq<VariantId>)
    requires cands in {[1, 2], [2, 1]}
    requires env.variantPrice(Main, 1, 1) == 11 && env.variantPrice(Main, 1, SENTINEL) == 11
    requires env.variantPrice(Main, 2, 1) == 11 && env.variantPrice(Main, 2, SENTINEL) == 11
    ensures var st := Run(14, Observations(env, Main, cands));
      !st.distinct && st.distinctFromTemplate && st.productId == Some(cands[0]) && st.addQty == 1
  {
    ObservationsOfTwo(env, Main, cands[0], cands[1]);
    var obs := Observations(env, Main, cands);
    RunOfTwo(14, obs[0], obs[1], obs[2], obs[3]);
  }

  /** test_get_cheapest_info_0: V1 costs 10 from 10 units on, so the resolver reports V1 at the
      sentinel quantity, with distinct prices; whichever order the variant rules come in. */
  lemma CheapestAtHighQuantity(catalog: seq<Rule>)
    requires ShopCatalog(catalog, 10)
    ensures var info := TemplateInfo(Setup(catalog, 10, 10), Main, TestTemplate);
      && info.hasDistinctPrice
      && info.productId == Some(1)
      && info.addQty == SENTINEL
  {
    var env := Setup(catalog, 10, 10);
    TestTemplateInfo(catalog, 10, 10);
    TestTemplateCandidates(catalog, 10, 10);
    ScanPicksBulkPrice(env, TemplateCandidates(env, Main, TestTemplate));
  }

  /** test_get_cheapest_info_1: both variants cost 11, below the template's 14, so the resolver
      reports no distinct prices but a price distinct from the template's, a variant of the
      template at quantity 1. */
  lemma SamePriceForBothVariants(catalog: seq<Rule>)
    requires ShopCatalog(catalog, 0)
    ensures var info := TemplateInfo(Setup(catalog, 0, 11), Main, TestTemplate);
      && !info.hasDistinctPrice
      && info.hasDistinctPriceFromTmpl
      && info.productId.Some? && info.productId.value in VariantIds(TestTemplate)
      && info.addQty == 1
  {
    var env := Setup(catalog, 0, 11);
    TestTemplateInfo(catalog, 0, 11);
    TestTemplateCandidates(catalog, 0, 11);
    TestTemplateVariants();
    ScanOfEqualPrices(env, TemplateCandidates(env, Main, TestTemplate));
  }
}

=== FILE: seq_util.dfy ===
/** Sequence operations that model Odoo recordset operations on ordered, duplicate-free ids. */
module SeqUtil {

  /** No element occurs twice: the shape of every recordset built with `|`. */
  predicate Distinct<T(==,!new)>(s: seq<T>) {
    forall i, j :: 0 <= i < j < |s| ==> s[i] != s[j]
  }

  /** The elements kept by `f`, in order (`recordset.filtered(f)`, or a search restricted to `s`). */
  function Filter<T(==,!new)>(s: seq<T>, f: T -> bool): (r: seq<T>)
    ensures forall x :: x in r <==> x in s && f(x)
    ensures |r| <= |s|
    ensures Distinct(s) ==> Distinct(r)
    decreases |s|
  {
    if s == [] then [] else (if f(s[0]) then [s[0]] else []) + Filter(s[1..], f)
  }

  /** Keep the first occurrence of every element (Odoo's `OrderedSet`). */
  function Dedup<T(==,!new)>(s: seq<T>): (r: seq<T>)
    ensures Distinct(r)
    ensures forall x :: x in r <==> x in s
    ensures |r| <= |s|
    decreases |s|
  {
    if s == [] then []
    else
      var d := Dedup(s[..|s| - 1]);
      if s[|s| - 1] in d then d else d + [s[|s| - 1]]
  }

  /** Recordset union `a | b`. */
  function Union<T(==,!new)>(a: seq<T>, b: seq<T>): (r: seq<T>)
    ensures Distinct(r)
    ensures forall x :: x in r <==> x in a || x in b
  {
    Dedup(a + b)
  }

  /** Recordset difference `a - b`: the elements of `a` not in `b`, in order. */
  function Difference<T(==,!new)>(a: seq<T>, b: seq<T>): (r: seq<T>)
    ensures forall x :: x in r <==> x in a && x !in b
    ensures Distinct(a) ==> Distinct(r)
  {
    Filter(a, x => x !in b)
  }

  /** `a - x` for a single record; it removes at least one element when `x` occurs. */
  function Without<T(==,!new)>(a: seq<T>, x: T): (r: seq<T>)
    ensures forall y :: y in r <==> y in a && y != x
    ensures Distinct(a) ==> Distinct(r)
    ensures |r| <= |a|
    ensures x in a ==> |r| < |a|
    decreases |a|
  {
    if a == [] then []
    else
      var rest := Without(a[1..], x);
      assert Distinct(a) ==> a[0] !in rest;
      (if a[0] != x then [a[0]] else []) + rest
  }

  /** The slice `s[:1]`: the first element, if any. */
  function Take1<T>(s: seq<T>): (r: seq<T>)
    ensures |r| == if s == [] then 0 else 1
    ensures s != [] ==> r[0] == s[0]
  {
    if s == [] then [] else s[..1]
  }

  /** Strictly ascending integers. */
  predicate StrictlySorted(s: seq<int>) {
    forall i, j :: 0 <= i < j < |s| ==> s[i] < s[j]
  }

  /** Insert `x` into a strictly ascending sequence, dropping it if already present. */
  function InsertSorted(x: int, s: seq<int>): (r: seq<int>)
    requires StrictlySorted(s)
    ensures StrictlySorted(r)
    ensures forall y :: y in r <==> y == x || y in s
    decreases |s|
  {
    if s == [] then [x]
    else if x < s[0] then [x] + s
    else if x == s[0] then s
    else
      var rest := InsertSorted(x, s[1..]);
      assert forall k :: 0 <= k < |rest| ==> rest[k] == x || rest[k] in s[1..];
      assert forall k :: 0 <= k < |s| - 1 ==> s[0] < s[1..][k];
      PrependSorted(s[0], rest);
      [s[0]] + rest
  }

  lemma PrependSorted(x: int, s: seq<int>)
    requires StrictlySorted(s)
    requires forall k :: 0 <= k < |s| ==> x < s[k]
    ensures StrictlySorted([x] + s)
  {
    var r := [x] + s;
    forall i, j | 0 <= i < j < |r| ensures r[i] < r[j] {
      assert r[j] == s[j - 1];
      if i > 0 { assert r[i] == s[i - 1]; }
    }
  }

  /** `sorted(set(s))`: the distinct values of `s`, ascending. */
  function SortedDistinct(s: seq<int>): (r: seq<int>)
    ensures StrictlySorted(r)
    ensures forall y :: y in r <==> y in s
    decreases |s|
  {
    if s == [] then [] else InsertSorted(s[0], SortedDistinct(s[1..]))
  }

  /** The elements of a sequence. */
  function Elems<T>(s: seq<T>): set<T> {
    set x | x in s
  }

  /** A duplicate-free sequence has as many elements as its set. */
  lemma {:induction false} DistinctElems<T(!new)>(s: seq<T>)
    requires Distinct(s)
    ensures |Elems(s)| == |s|
  {
    if s != [] {
      DistinctElems(s[1..]);
      assert Elems(s) == {s[0]} + Elems(s[1..]);
    }
  }
}

=== FILE: wrappers.dfy ===
/** Optional values and results, for the ORM's "empty recordset / False" and for raised errors. */
module Wrappers {

  /** `None` stands for Odoo's `False` / empty record. */
  datatype Option<+T> = None | Some(value: T) {

    /** The value, or `default` when there is none (`dict.get(key, default)`). */
    function GetOr(default: T): T {
      match this
      case Some(v) => v
      case None => default
    }
  }

  /** The outcome of a call that may raise. */
  datatype Result<+R, +E> = Success(value: R) | Failure(error: E)
}
